=== FILE: README.md ===
# RealESRGAN VapourSynth plugin: tiling, option validation and GPU gating in Dafny

This project models three integer-only parts of the RealESRGAN ncnn Vulkan plugin for
VapourSynth and proves properties of each.

- **Tile geometry of `RealESRGAN::process`** (modules `Tiling`, `TileGeometry`, `HostIndex`).
  - A `width x height` frame is cut into `ytiles` row bands and `xtiles` column tiles of the
    session's tile size `T`.
  - Each band uploads its rows extended by the prepadding `P` and clamped to the frame.
  - Each tile hands the preprocessing shader an unclamped padded window and the shader
    constants.
  - The network output is cropped into a column slot of the band's output buffer.
  - The buffer is downloaded into the caller's destination planes.

  The proofs show:
  - the counts are ceilings;
  - the bands and the column slots partition the output exactly;
  - every host read and write stays inside its plane, and no destination element is written
    twice.
- **Option validation in `filterCreate`** (module `FilterOptions`). This is a pure function
  from the optional filter arguments and the host facts (the clip's format, the plugin path,
  whether the model files open, the GPUs) to a configuration or an error message.
  - The checks run in a fixed order, so the first failing check decides the message.
  - The scale, model-path, gpu id, tile-size, heap-budget and semaphore-capacity rules are
    each proved.
- **Global bookkeeping** (modules `Gate`, `Registry`). The `Semaphore` counter, the filter
  instance count that decides when the ncnn GPU instance exists, and the per-GPU semaphore
  map form a sequential state machine. Its invariant holds in every reachable state:
  - the GPU instance is alive exactly while the instance count, which includes creations
    still under way, is positive;
  - no semaphore value is negative;
  - each semaphore's value plus its calls in flight is its capacity.

`Wrappers` holds the `Option` and `Result` types.

Two points where the code is easy to misread, modelled as the code has them:

- The padded tile window is not clamped to the frame in either axis; only the uploaded band
  rows are.
- The semaphore capacity is `min(gpu_thread > 0 ? gpu_thread : transfer queue count,
  compute queue count)`. A positive `gpu_thread` replaces the transfer queue count rather
  than taking part in a three-way minimum.

Other notes:

- `tilesize_y` is validated, but it is not among the arguments the plugin registers, and it
  is never stored. `FilterOptions.TileSizeYNeverStored` proves it cannot change an accepted
  configuration.
- The catch block of `filterCreate` destroys the GPU instance when the count returns to zero
  but does not empty the semaphore map, unlike `filterFree`.
  `Registry.SemaphoresCanOutliveInstance` gives a trace where no instance and no GPU
  instance remain but a semaphore does. So the invariant does not include "no semaphores
  without instances".

- The scale is never checked against the model. Models 1 and 2 load 4x networks at any
  scale, so at scale 2 or 3 the postprocessing crop assumes the wrong network output size
  (`FilterOptions.FixedScaleModelCropMismatch`).

## Model

| member | source | states |
|---|---|---|
| Tiling.Count | src/realesrgan.cpp:223-224 | `(n + t - 1) / t` is the ceiling of n / t: `(r - 1) * t < n <= r * t`. |
| Tiling.CountUnique | src/realesrgan.cpp:223-224 | Only one count satisfies the ceiling bounds. |
| Tiling.Len | src/realesrgan.cpp:231 | The unpadded tile length `min((i + 1) * t, n) - i * t` is in `[1, t]` for every visited tile and non-positive past the last one. |
| Tiling.CoveredPrefix | src/realesrgan.cpp:229-231 | The first k tiles cover exactly `[0, min(k * t, n))`, by induction on k. |
| Tiling.TilesCover | src/realesrgan.cpp:223-231 | All tiles together cover `[0, n)` and nothing else. |
| Tiling.TilesDisjoint | src/realesrgan.cpp:229-231 | An earlier tile ends before a later one starts; their cell sets are disjoint. |
| Tiling.TilesContiguous | src/realesrgan.cpp:229-231 | Every tile but the last ends where the next starts; the last ends at n. |
| Tiling.OwnerTile | src/realesrgan.cpp:229-231 | Every cell lies in exactly one tile, tile `p / t`. |
| Tiling.ScaledCount | src/realesrgan.cpp:223-224 | Scaling extent and tile size by s keeps the tile count. |
| Tiling.ScaledTile | src/realesrgan.cpp:380-381 | Scaling extent and tile size by s scales each tile's bounds by s. |
| TileGeometry.UploadRows | src/realesrgan.cpp:233-236 | The uploaded band rows satisfy `0 <= in_tile_y0 <= yi * T` and `min((yi + 1) * T, height) <= in_tile_y1 <= height`, so the band has at least `tile_h_nopad` rows. |
| TileGeometry.TileWindow | src/realesrgan.cpp:288-293 | The unclamped padded window is `tile_w_nopad + 2P` wide and `tile_h_nopad + 2P` high wherever the tile sits. |
| TileGeometry.UploadIsClampedWindow | src/realesrgan.cpp:233-234 | The uploaded band rows are exactly the padded window's rows clamped to `[0, height)`. |
| TileGeometry.Preproc | src/realesrgan.cpp:415-428 | The padded tile constants are the size of the tile's unclamped window, both padding constants are `P`, the column offset is `xi * T` and the channel count is 3. For every visited tile, the band constants are the uploaded band's size and the row offset `min(yi * T, P)` equals `yi * T - in_tile_y0`. The tile's unpadded rows and columns lie inside the band, and the tile constants are the unpadded sizes plus twice the padding. |
| TileGeometry.BandBuffer | src/realesrgan.cpp:271-275 | The band buffer is `width * scale` wide and `tile_h_nopad * scale` high. |
| TileGeometry.Postproc | src/realesrgan.cpp:461-479 | The network output is the tile's padded window scaled by `scale`, the band constants are the band buffer's size, both crop constants are `P * scale`, and the slot constants are the start and width of `Slot(g, xi)`. For every visited tile, the slot width is `tile_w_nopad * scale` and lies inside the band buffer, and, with the network scaling by the session scale, cropping `P * scale` from both sides of the network output leaves exactly the slot width and the band height. |
| TileGeometry.SlotWidth | src/realesrgan.cpp:469 | `min(T * scale, width * scale - xi * T * scale)` is `tile_w_nopad * scale`. |
| TileGeometry.Slot | src/realesrgan.cpp:468-469 | The column slot of tile xi is tile xi of the output width cut by `T * scale`, and its width is `tile_w_nopad * scale`. |
| TileGeometry.SlotsContiguous | src/realesrgan.cpp:468-469 | Consecutive slots touch; the last ends at `width * scale`. |
| TileGeometry.SlotsDisjoint | src/realesrgan.cpp:468-469 | An earlier slot ends before a later one starts. |
| TileGeometry.SlotsPartitionOutputWidth | src/realesrgan.cpp:468-469 | The slots start at 0, are laid end to end, end at `width * scale` and never overlap. |
| TileGeometry.SlotsCoverOutputWidth | src/realesrgan.cpp:468-469 | The slots together cover `[0, width * scale)` and nothing else. |
| TileGeometry.OutRows | src/realesrgan.cpp:271-272 | The band's rows `out_tile_y0 .. out_tile_y1` number `tile_h_nopad`. |
| TileGeometry.BandsPartitionFrameRows | src/realesrgan.cpp:271-272 | The bands start at 0, are contiguous, end at the frame height, are disjoint and cover `[0, height)`. |
| TileGeometry.DstRows | src/realesrgan.cpp:506-510 | The rows band yi writes start at `yi * T * scale`, are band yi of the output height cut by `T * scale`, and number as many as the band buffer's rows. |
| TileGeometry.ColumnOwner | src/realesrgan.cpp:468-469 | Every output column lies in exactly one slot, slot `px / (T * scale)`. |
| TileGeometry.RowOwner | src/realesrgan.cpp:506-510 | Every output row is written by exactly one band, band `py / (T * scale)`. |
| TileGeometry.OutputTilesPartitionImage | src/realesrgan.cpp:468-477 | Every output pixel lies in the output rectangle of exactly one tile. |
| TileGeometry.Schedule | src/realesrgan.cpp:229-279 | The loops visit `ytiles * xtiles` tiles in row-major order, job k being tile `(k mod xtiles, k div xtiles)` with that tile's shader constants. |
| HostIndex.SrcIndex | src/realesrgan.cpp:244-253 | Given `src_stride >= width`, each source read is inside the `height * src_stride` plane and is frame pixel `(x, in_tile_y0 + y)`. |
| HostIndex.StagingIndex | src/realesrgan.cpp:251-253 | Each staging write is inside the `in_tile_w * in_tile_h` matrix and decodes to `(x, y)`. |
| HostIndex.BandIndex | src/realesrgan.cpp:514-516 | Each band-buffer read is inside the buffer and decodes to `(x, y)`. |
| HostIndex.DstIndex | src/realesrgan.cpp:506-516 | Given `dst_stride >= width * scale`, each destination write is inside the `height * scale * dst_stride` plane and is output pixel `(x, yi * T * scale + y)`. |
| HostIndex.DstWritesDisjoint | src/realesrgan.cpp:506-516 | Two download writes to the same element have the same band, row and column. |
| HostIndex.DstWritesCover | src/realesrgan.cpp:506-516 | Every output element is written by some band's download loop. |
| FilterOptions.ToIntS | src/main.cpp:167 | The int64-to-int narrowing lands in the int range, is exact inside it, and otherwise saturates. |
| FilterOptions.ResolveScale | src/main.cpp:167-169 | The scale is at least 2: 2 when unset or below 2, else the given value. |
| FilterOptions.LastSlash | src/main.cpp:178-179 | The position of the last '/' in the plugin path, or -1 when it has none. |
| FilterOptions.PluginDir | src/main.cpp:178-179 | The directory prefix is the plugin path up to its last '/', or the whole path when it has no '/'. |
| FilterOptions.DigitText | src/main.cpp:201-202 | Formatting a one-digit scale gives that decimal digit. |
| FilterOptions.ModelStem | src/main.cpp:196-215 | A stem exists exactly for model ids 0, 1 and 2. |
| FilterOptions.AutoTileSize | src/main.cpp:244-255 | The heap-budget policy picks one of 400, 200, 100, 32: 400 iff the budget exceeds 2600, at least 200 iff it exceeds 740, 32 iff it is at most 250. |
| FilterOptions.AutoTileSizeMonotone | src/main.cpp:244-255 | A larger heap budget never yields a smaller tile. |
| FilterOptions.AutoTileSizeExample | src/main.cpp:247-248 | A budget of 3000 gives tile size 400. |
| FilterOptions.GpuThreads | src/main.cpp:257-263 | The capacity is between 0 and the compute queue count. A positive gpu_thread within that bound is used as given, and a larger one is cut to it. Without a positive gpu_thread the capacity is at most the transfer queue count and equals it or the compute queue count. |
| FilterOptions.Create | src/main.cpp:160-276 | Every accepted configuration has scale 2, 3 or 4, the scaled target size, a gpu id in range, tile size at least 32, prepadding 10, a capacity within the compute queue count, and model paths under `<plugin dir>/models/`. |
| FilterOptions.FailFrom | src/main.cpp:160-241 | The first failing check from index i on: none iff no check fails, else the message of a failing check with no failing check before it. |
| FilterOptions.CreateReportsFirstFailedCheck | src/main.cpp:160-241 | Creation fails iff one of the seven checks fails, and then with the message of the first failing one in source order. |
| FilterOptions.CreateScale | src/main.cpp:167-174 | The stored scale follows the scale rule; a scale above 4 fails with the scale error once the format passes; the target is the input scaled. |
| FilterOptions.ModelIdCheckedBeforeFilesAndGpu | src/main.cpp:196-221 | An unknown model id fails with the model error whatever the files and GPUs are. |
| FilterOptions.CreatePaths | src/main.cpp:178-215 | Both paths are `<plugin dir>/models/<stem>` with `.param` / `.bin`; model 0 names the scale, models 1 and 2 do not. |
| FilterOptions.CreateGpuId | src/main.cpp:224-228 | gpu_id defaults to 0; after the earlier checks, it fails with the gpu error iff it is outside `[0, gpu count)`. |
| FilterOptions.CreateTileSize | src/main.cpp:231-255 | Unset means 100; a non-zero value below 32 is refused; a value of at least 32 is stored as given; 0 takes the heap-budget policy of the chosen GPU. |
| FilterOptions.TileSizeYNeverStored | src/main.cpp:237-241 | tilesize_y never changes an accepted configuration, and unset it never fails. |
| FilterOptions.CreateCapacity | src/main.cpp:257-263 | The stored capacity is the gpu_thread rule for the chosen GPU, at most its compute queue count. |
| FilterOptions.CreateGivesProcessableShape | src/main.cpp:160-276 | An accepted configuration gives process a non-empty frame, a tile size of at least 1 and a positive scale. |
| FilterOptions.DefaultsExample | src/main.cpp:167-263 | With every argument unset on a 64x64 float clip the defaults are scale 2, GPU 0, tile size 100, capacity from the queues, and tta off. Unreadable files fail with the file error. |
| FilterOptions.OversizedTileAccepted | src/main.cpp:231-235 | A 4x session with a tile size of 10^9 is accepted with that tile size, though `tilesize * scale` exceeds the int range. |
| FilterOptions.SaturatedTileAccepted | src/main.cpp:231-235 | A tile size beyond the int range is accepted as `IntMax`; on a 1x1 clip the session has one band, yet `(0 + 1) * T + prepadding` exceeds the int range. |
| FilterOptions.NetworkScale | src/main.cpp:185-213 | The loaded network's factor equals the session scale exactly for model 0 or scale 4; models 1 and 2 load 4x networks. |
| FilterOptions.FixedScaleModelAccepted | src/main.cpp:167-174 | Model 1 at the default scale 2 is accepted, although its network upscales by 4. |
| FilterOptions.FixedScaleModelCropMismatch | src/realesrgan.cpp:461-471 | For that session's first tile, the 4x network output cropped by `P * 2` on each side is 296 columns wide where the slot is 128. |
| Gate.Wait | src/main.cpp:35-43 | wait proceeds iff the value is positive and then decrements it, never below 0. |
| Gate.Signal | src/main.cpp:45-50 | signal increments the value. |
| Gate.SignalUndoesWait | src/main.cpp:35-50 | A signal after a wait restores the semaphore. |
| Gate.WaitAfterSignal | src/main.cpp:35-50 | A wait after a signal on a non-negative value proceeds and restores it. |
| Gate.ApplyBalance | src/main.cpp:35-50 | A completed run changes the value by signals minus waits. |
| Gate.ApplyNonNegative | src/main.cpp:35-43 | From a non-negative value the value never goes negative. |
| Gate.PermitsBounded | src/main.cpp:35-50 | From capacity c, the permits held never exceed c, and while fewer are held the next wait proceeds. |
| Registry.Enter | src/main.cpp:149-158 | The count goes up; the GPU instance is created when the count was 0; nothing else changes. |
| Registry.Commit | src/main.cpp:265-268 | A semaphore is inserted only if the GPU has none; the session joins; other GPUs' semaphores are untouched. |
| Registry.Abort | src/main.cpp:278-286 | The count goes down; the GPU instance is destroyed when it reaches 0; the semaphore map is untouched. |
| Registry.ErrorText | src/main.cpp:288 | The reported error is "RealESRGAN: " followed by the validation message. |
| Registry.ReportedError | src/main.cpp:278-288 | A filterCreate call reports an error iff some check fails, and the error is "RealESRGAN: " followed by the message of the first failing check. |
| Registry.Free | src/main.cpp:128-138 | The count goes down; at 0 the GPU instance is destroyed and the semaphore map emptied, otherwise both are kept. |
| Registry.Wait | src/main.cpp:35-43 | The GPU's wait blocks iff its value is not positive; otherwise the value drops by one, one more call is in flight, and nothing but that GPU's slot changes. |
| Registry.Signal | src/main.cpp:45-50 | The GPU's signal returns one permit, one fewer call is in flight, and nothing but that GPU's slot changes. |
| Registry.InitValid | src/main.cpp:62-64 | The initial state satisfies the invariant. |
| Registry.EnterKeepsValid | src/main.cpp:149-158 | Entering creation keeps the invariant. |
| Registry.FinishCreateKeepsValid | src/main.cpp:160-286 | Committing or aborting a creation keeps the invariant. |
| Registry.FreeKeepsValid | src/main.cpp:128-138 | Freeing an instance keeps the invariant. |
| Registry.WaitKeepsValid | src/main.cpp:35-43 | A wait keeps the invariant. |
| Registry.SignalKeepsValid | src/main.cpp:45-50 | A signal keeps the invariant. |
| Registry.EnterCreatesInstanceOnFirst | src/main.cpp:151-156 | The GPU instance is created exactly when the count goes from 0 to 1. |
| Registry.FreeDestroysInstanceOnLast | src/main.cpp:128-138 | The GPU instance is destroyed exactly when the count goes from 1 to 0, and the map is then emptied. |
| Registry.FailedCreateRestores | src/main.cpp:278-286 | A failed creation restores the state from before the call. |
| Registry.SuccessfulCreateShares | src/main.cpp:265-268 | A successful creation registers the session and reuses the GPU's semaphore, or makes one with the session's capacity. |
| Registry.FirstCapacityWins | src/main.cpp:265-267 | A second session on the same GPU leaves its semaphore as the first made it. |
| Registry.WaitBlocksAtCapacity | src/main.cpp:35-43 | Calls in flight never exceed the capacity, and a wait blocks exactly when they reach it. |
| Registry.SignalUndoesWait | src/main.cpp:92-94 | The signal after process restores the state before its wait. |
| Registry.StepKeepsValid | src/main.cpp:25-286 | Every event keeps the invariant. |
| Registry.RunKeepsValid | src/main.cpp:25-286 | Every sequence of events keeps the invariant, by induction on the sequence. |
| Registry.ReachableCountsNonNegative | src/main.cpp:62-64 | From the start the count and every semaphore value stay non-negative, and the GPU instance is alive iff the count is positive. |
| Registry.SemaphoresCanOutliveInstance | src/main.cpp:278-286 | A failed creation after the last free leaves no instance but a semaphore in the map. |

## Left out

- Vulkan and ncnn setup: SPIR-V selection, pipeline creation, allocators and network loading are foreign library calls.
- The bicubic alpha layers and the alpha bindings and constants (preproc and postproc constants 11 and 12) are never fed data.
- The channel-step constants (2 and 5) depend on ncnn's allocation alignment.
- Network inference and the `submit_and_wait` calls are opaque GPU execution. The geometry assumes that the network scales both dimensions by the session scale (`TileGeometry.InferenceSize`). That holds for model 0, whose network is chosen by the scale. It fails for models 1 and 2 at scale 2 or 3: their networks upscale by 4 (`FilterOptions.NetworkScale`), and `FilterOptions.Create` accepts those sessions (`FilterOptions.FixedScaleModelAccepted`).
- The TTA branch has eight windows, the last four transposed. Its shader constants come from window 0 and output 0, so its geometry is the modelled one; the transposed windows are not modelled separately.
- Float pixel arithmetic is not modelled: the `* 255`, the `/ 255` and the clamp to `[0, 1]`. Only the index mapping is.
- The download at src/realesrgan.cpp:500 is guarded by `!(use_fp16_storage && use_int8_storage)` on a copy of the network's options. The constructor sets `use_int8_storage = false` (src/realesrgan.cpp:52), so the guard always holds and the download always happens; the model treats it as unconditional.
- Threads, the mutex and the condition variable are not modelled. Each locked block is one atomic step, and a blocking wait is a step that cannot be taken yet.
- Model file I/O is not modelled. Whether both files open is an input.
- VapourSynth plumbing is not modelled: `filterInit`, `filterGetFrame`, frame allocation, argument reading, plugin registration.
- `process` only runs, and only touches the semaphore, for RGB clips; the colour family is not part of the model.
- Tiling.Count: does not model 32-bit overflow of `width + T - 1`; integers are unbounded.
- TileGeometry.UploadRows: does not model 32-bit overflow of `(yi + 1) * T + prepadding` (src/realesrgan.cpp:234). A tile size above `IntMax - prepadding` is accepted, since `int64ToIntS` saturates larger values to `IntMax` and the check has no upper bound; on a clip of at most `prepadding` rows that sum overflows while the tile count does not (`FilterOptions.SaturatedTileAccepted`). The model gives the exact band.
- HostIndex.SrcIndex: does not model 32-bit overflow of `in_tile_y0 * src_stride`; integers are unbounded.
- HostIndex.DstIndex: does not model 32-bit overflow of `yi * T * scale * dst_stride`; integers are unbounded.
- FilterOptions.Create: does not model 32-bit overflow of `width * scale`; integers are unbounded.
- TileGeometry.SlotWidth: does not model 32-bit overflow of `T * scale`, which the source computes in int. The tile size check has no upper bound, so an accepted tile size above `IntMax / scale` overflows there (FilterOptions.OversizedTileAccepted gives one); the model's slot width is the exact one.
- TileGeometry.Slot: the slot width `min(T * scale, width * scale - xi * T * scale)` is exact only while `T * scale` fits in int; for larger accepted tile sizes the source's value overflows and the model does not follow it.
- TileGeometry.Postproc: constants 0 and 1 are the size the network really outputs. The model takes them to be the padded window times the session scale, so its claim that cropping `P * scale` from both sides leaves the slot width holds only when the network factor equals the scale. For models 1 and 2 at scale 2 or 3 it does not: `FilterOptions.FixedScaleModelCropMismatch` shows 296 columns left where the slot is 128.
- TileGeometry.Postproc: constant 7 and the dispatch width share the overflow of `T * scale` described for TileGeometry.SlotWidth; the model states the exact values.
- FilterOptions.Create: `isConstantFormat` is a helper from VapourSynth's `VSHelper.h`, modelled as a known format with positive width and height.
- FilterOptions.ToIntS: `int64ToIntS` is a helper from VapourSynth's `VSHelper.h`, modelled as saturating at the int range.

=== FILE: gate.dfy ===
/** The Semaphore class of the plugin as a sequential counter: `wait`
    proceeds only while the count is positive and then takes one permit,
    `signal` returns one. The mutex and condition variable are not modelled;
    a wait that would block is a step that cannot be taken yet. */
module Gate {
  import opened Wrappers

  datatype Semaphore = Semaphore(val: int)

  /** wait: the semaphore after a permit is taken, or None while the count
      is not positive (the caller blocks). */
  function Wait(s: Semaphore): (r: Option<Semaphore>)
    ensures r.Some? <==> s.val > 0
    ensures r.Some? ==> r.value.val == s.val - 1 && r.value.val >= 0
  {
    if s.val <= 0 then None else Some(Semaphore(s.val - 1))
  }

  /** signal: one permit returned. */
  function Signal(s: Semaphore): (r: Semaphore)
    ensures r.val == s.val + 1
  {
    Semaphore(s.val + 1)
  }

  /** Returning the permit just taken restores the semaphore. */
  lemma SignalUndoesWait(s: Semaphore)
    requires Wait(s).Some?
    ensures Signal(Wait(s).value) == s
  {
  }

  /** After a signal on a non-negative count, a wait never blocks and takes
      the permit back. */
  lemma WaitAfterSignal(s: Semaphore)
    requires s.val >= 0
    ensures Wait(Signal(s)) == Some(s)
  {
  }

  datatype Op = WaitOp | SignalOp

  /** The semaphore after the operations in order, or None if one of the
      waits would block. */
  function Apply(s: Semaphore, ops: seq<Op>): Option<Semaphore>
    decreases |ops|
  {
    if |ops| == 0 then Some(s)
    else
      var next := if ops[0] == WaitOp then Wait(s) else Some(Signal(s));
      if next.None? then None else Apply(next.value, ops[1..])
  }

  /** The number of occurrences of op in ops. */
  function Occurrences(ops: seq<Op>, op: Op): (r: nat)
    ensures r <= |ops|
    decreases |ops|
  {
    if |ops| == 0 then 0 else (if ops[0] == op then 1 else 0) + Occurrences(ops[1..], op)
  }

  /** Every operation is a wait or a signal, so the two counts add up to the
      length of the run. */
  lemma {:induction false} OccurrencesSplit(ops: seq<Op>)
    ensures Occurrences(ops, WaitOp) + Occurrences(ops, SignalOp) == |ops|
    decreases |ops|
  {
    if |ops| > 0 {
      OccurrencesSplit(ops[1..]);
    }
  }

  /** A completed run changes the count by its signals minus its waits. */
  lemma {:induction false} ApplyBalance(s: Semaphore, ops: seq<Op>)
    requires Apply(s, ops).Some?
    ensures Apply(s, ops).value.val == s.val + Occurrences(ops, SignalOp) - Occurrences(ops, WaitOp)
    decreases |ops|
  {
    if |ops| > 0 {
      var next := if ops[0] == WaitOp then Wait(s) else Some(Signal(s));
      ApplyBalance(next.value, ops[1..]);
    }
  }

  /** Starting from a non-negative count, the count never goes negative. */
  lemma {:induction false} ApplyNonNegative(s: Semaphore, ops: seq<Op>)
    requires s.val >= 0 && Apply(s, ops).Some?
    ensures Apply(s, ops).value.val >= 0
    decreases |ops|
  {
    if |ops| > 0 {
      var next := if ops[0] == WaitOp then Wait(s) else Some(Signal(s));
      ApplyNonNegative(next.value, ops[1..]);
    }
  }

  /** The concurrency bound: from a semaphore created with capacity c >= 0,
      the permits held after any completed run (waits minus signals) never
      exceed c, and while fewer than c are held the next wait proceeds. */
  lemma PermitsBounded(c: int, ops: seq<Op>)
    requires c >= 0 && Apply(Semaphore(c), ops).Some?
    ensures Occurrences(ops, WaitOp) - Occurrences(ops, SignalOp) <= c
    ensures Occurrences(ops, WaitOp) - Occurrences(ops, SignalOp) < c ==>
      Wait(Apply(Semaphore(c), ops).value).Some?
  {
    ApplyBalance(Semaphore(c), ops);
    ApplyNonNegative(Semaphore(c), ops);
  }
}

=== FILE: geometry.dfy ===
/** The tile geometry of RealESRGAN::process: how a width x height frame is
    cut into row bands of the tile size and, within each band, column tiles
    of the same size; which frame rows are uploaded for a band; the padded
    window handed to the preprocessing shader; the geometric shader
    constants; and the size of the band output buffer. Both axes use the
    session's single tile size. */
module TileGeometry {
  import opened Tiling

  /** The inputs of one process call that the geometry depends on: the
      frame size and the session's tile size, prepadding and scale. */
  datatype Shape = Shape(width: nat, height: nat, tilesize: nat, prepadding: nat, scale: nat)

  /** What process needs of its session: a tile size it can divide by and a
      positive scale. A configuration that filter creation accepts always
      meets it (FilterOptions.CreateGivesProcessableShape). */
  predicate WellFormed(g: Shape)
  {
    g.tilesize >= 1 && g.scale >= 1
  }

  /** A half-open interval [lo, hi). */
  datatype Span = Span(lo: int, hi: int) {
    function Size(): int { hi - lo }
  }

  /** Width and height of a device buffer. */
  datatype Extent = Extent(w: int, h: int)

  /** The padded window of one tile, in frame coordinates. */
  datatype Window = Window(cols: Span, rows: Span)

  /** Channels per buffer (CHANNELS). */
  const Channels := 3

  /** Number of column tiles per band and number of row bands. */
  function XTiles(g: Shape): nat
    requires WellFormed(g)
  {
    Count(g.width, g.tilesize)
  }

  function YTiles(g: Shape): nat
    requires WellFormed(g)
  {
    Count(g.height, g.tilesize)
  }

  /** Unpadded width of column tile xi and unpadded height of band yi. */
  function TileWNoPad(g: Shape, xi: nat): int
    requires WellFormed(g)
  {
    Len(xi, g.width, g.tilesize)
  }

  function TileHNoPad(g: Shape, yi: nat): int
    requires WellFormed(g)
  {
    Len(yi, g.height, g.tilesize)
  }

  /** The frame rows uploaded for band yi (in_tile_y0 .. in_tile_y1): the
      band's own rows extended by the prepadding above and below, clamped to
      the frame. The whole frame width is uploaded. */
  function UploadRows(g: Shape, yi: nat): (r: Span)
    requires WellFormed(g)
    ensures yi < YTiles(g) ==> 0 <= r.lo <= yi * g.tilesize
    ensures yi < YTiles(g) ==> End(yi, g.height, g.tilesize) <= r.hi <= g.height
    ensures yi < YTiles(g) ==> r.Size() >= TileHNoPad(g, yi)
  {
    var t := g.tilesize;
    assert (yi + 1) * t == yi * t + t;
    Span(Max(yi * t - g.prepadding, 0), Min((yi + 1) * t + g.prepadding, g.height))
  }

  /** The padded window of tile (xi, yi) (tile_x0 .. tile_x1, tile_y0 ..
      tile_y1): the tile extended by the prepadding on all four sides and,
      unlike the uploaded band, not clamped to the frame in either axis, so
      its size never depends on where the tile sits. */
  function TileWindow(g: Shape, xi: nat, yi: nat): (w: Window)
    requires WellFormed(g)
    ensures w.cols.Size() == TileWNoPad(g, xi) + 2 * g.prepadding
    ensures w.rows.Size() == TileHNoPad(g, yi) + 2 * g.prepadding
  {
    var t := g.tilesize;
    var p := g.prepadding;
    Window(Span(xi * t - p, Min((xi + 1) * t, g.width) + p),
           Span(yi * t - p, Min((yi + 1) * t, g.height) + p))
  }

  /** The uploaded band is exactly the padded window's rows clamped to the
      frame, so clamping once at upload time and leaving the window
      unclamped agree on which frame rows exist. */
  lemma UploadIsClampedWindow(g: Shape, xi: nat, yi: nat)
    requires WellFormed(g)
    ensures UploadRows(g, yi) == Span(Max(TileWindow(g, xi, yi).rows.lo, 0),
                                      Min(TileWindow(g, xi, yi).rows.hi, g.height))
  {
  }

  /** The preprocessing shader constants of one tile that carry geometry:
      constants 0 and 1 (the uploaded band), 3 and 4 (the padded tile),
      6 and 7 (the padding), 8 and 9 (where the tile's first unpadded column
      and row sit inside the band) and 10 (channels). The channel steps
      (2, 5) and the alpha sizes (11, 12) are left out. */
  datatype PreprocConstants = PreprocConstants(
    bandW: int, bandH: int,
    tileW: int, tileH: int,
    padLeft: int, padTop: int,
    offsetX: int, offsetY: int,
    channels: int)

  /** The preprocessing constants of tile (xi, yi): the padded tile is the
      tile's window, the padding is the session's prepadding on both sides,
      and the column offset is the tile's first column. The row offset
      `min(yi * T, P)` is the position of the band's first unpadded row
      inside the uploaded band, and the tile's unpadded rows and columns lie
      inside the band. */
  function Preproc(g: Shape, xi: nat, yi: nat): (c: PreprocConstants)
    requires WellFormed(g)
    ensures xi < XTiles(g) && yi < YTiles(g) ==>
      && c.bandW == g.width && c.bandH == UploadRows(g, yi).Size()
      && c.offsetY == yi * g.tilesize - UploadRows(g, yi).lo
      && 0 <= c.offsetX && c.offsetX + TileWNoPad(g, xi) <= c.bandW
      && 0 <= c.offsetY && c.offsetY + TileHNoPad(g, yi) <= c.bandH
      && c.tileW == TileWNoPad(g, xi) + 2 * c.padLeft
      && c.tileH == TileHNoPad(g, yi) + 2 * c.padTop
    ensures c.offsetX == xi * g.tilesize
    ensures c.padLeft == g.prepadding && c.padTop == g.prepadding
    ensures c.tileW == TileWindow(g, xi, yi).cols.Size() && c.tileH == TileWindow(g, xi, yi).rows.Size()
    ensures c.channels == Channels
  {
    var t := g.tilesize;
    var band := UploadRows(g, yi);
    var w := TileWindow(g, xi, yi);
    PreprocConstants(g.width, band.Size(), w.cols.Size(), w.rows.Size(),
                     g.prepadding, g.prepadding, xi * t, Min(yi * t, g.prepadding), Channels)
  }

  /** The device buffer of band yi (out_gpu): the whole output width by the
      band's output rows (out_tile_y0 .. out_tile_y1), both scaled. */
  function BandBuffer(g: Shape, yi: nat): (r: Extent)
    requires WellFormed(g)
    ensures r.w == g.width * g.scale
    ensures yi < YTiles(g) ==> r.h == TileHNoPad(g, yi) * g.scale
  {
    var t := g.tilesize;
    var outY0 := Max(yi * t, 0);
    var outY1 := Min((yi + 1) * t, g.height);
    Extent(g.width * g.scale, (outY1 - outY0) * g.scale)
  }

  /** The network is opaque; the one property the model relies on is that
      it scales both dimensions of its input by the session's scale. */
  function InferenceSize(inSize: int, scale: nat): int
  {
    inSize * scale
  }

  /** The postprocessing shader constants of one tile that carry geometry:
      constants 0 and 1 (the network output), 3 and 4 (the band buffer),
      6 and 7 (the column slot the tile fills in the band buffer), 8 and 9
      (the border cropped off the network output) and 10 (channels). The
      dispatch size is the slot width by the band buffer height. */
  datatype PostprocConstants = PostprocConstants(
    tileOutW: int, tileOutH: int,
    bandOutW: int, bandOutH: int,
    offsetX: int, slotW: int,
    cropLeft: int, cropTop: int,
    channels: int)

  /** The postprocessing constants of tile (xi, yi). The network output is
      the padded window scaled, the crop is the scaled padding, and the
      column slot is Slot(g, xi) of the band buffer. For a visited tile the
      slot is the tile's unpadded width scaled and lies inside the band
      buffer, and cropping the scaled padding from both sides of the network
      output leaves exactly the slot width and the band buffer height. */
  function Postproc(g: Shape, xi: nat, yi: nat): (c: PostprocConstants)
    requires WellFormed(g)
    ensures xi < XTiles(g) && yi < YTiles(g) ==>
      && c.slotW == TileWNoPad(g, xi) * g.scale
      && c.bandOutH == TileHNoPad(g, yi) * g.scale
      && c.cropLeft + c.slotW + c.cropLeft == c.tileOutW
      && c.cropTop + c.bandOutH + c.cropTop == c.tileOutH
      && 0 <= c.offsetX && c.offsetX + c.slotW <= c.bandOutW
    ensures c.offsetX == Slot(g, xi).lo && c.slotW == Slot(g, xi).Size()
    ensures c.cropLeft == g.prepadding * g.scale && c.cropTop == g.prepadding * g.scale
    ensures c.tileOutW == InferenceSize(TileWindow(g, xi, yi).cols.Size(), g.scale)
    ensures c.tileOutH == InferenceSize(TileWindow(g, xi, yi).rows.Size(), g.scale)
    ensures c.bandOutW == g.width * g.scale && c.bandOutH == BandBuffer(g, yi).h
    ensures c.channels == Channels
  {
    var t := g.tilesize;
    var s := g.scale;
    var band := BandBuffer(g, yi);
    var w := TileWindow(g, xi, yi);
    var slot := Slot(g, xi);
    ScalePadded(TileWNoPad(g, xi), g.prepadding, s);
    ScalePadded(TileHNoPad(g, yi), g.prepadding, s);
    PostprocConstants(InferenceSize(w.cols.Size(), s), InferenceSize(w.rows.Size(), s),
                      band.w, band.h,
                      slot.lo, slot.Size(),
                      g.prepadding * s, g.prepadding * s, Channels)
  }

  lemma ScalePadded(n: int, p: int, s: int)
    ensures (n + 2 * p) * s == p * s + n * s + p * s
  {
  }

  /** `min(T * scale, width * scale - xi * T * scale)` is the scaled
      unpadded tile width. */
  lemma SlotWidth(g: Shape, xi: nat)
    requires WellFormed(g)
    ensures Min(g.tilesize * g.scale, g.width * g.scale - xi * g.tilesize * g.scale)
            == TileWNoPad(g, xi) * g.scale
  {
    var t := g.tilesize;
    var s := g.scale;
    assert (xi + 1) * t == xi * t + t;
    assert (g.width - xi * t) * s == g.width * s - xi * t * s;
    assert (End(xi, g.width, t) - xi * t) * s == End(xi, g.width, t) * s - xi * t * s;
    if t < g.width - xi * t {
      MulStrictMonotone(t, g.width - xi * t, s);
    } else {
      MulMonotone(g.width - xi * t, t, s);
    }
  }

  /** The column slot tile xi fills in every band buffer (postprocessing
      constants 6 and 7: from `xi * T * scale`, `min(T * scale, width *
      scale - xi * T * scale)` columns wide). It is tile xi of the output
      width cut by the scaled tile size. */
  function Slot(g: Shape, xi: nat): (r: Span)
    requires WellFormed(g)
    ensures r.lo == xi * (g.tilesize * g.scale)
    ensures r.hi == End(xi, g.width * g.scale, g.tilesize * g.scale)
    ensures r.Size() == TileWNoPad(g, xi) * g.scale
  {
    var t := g.tilesize;
    var s := g.scale;
    var x0 := xi * t * s;
    SlotWidth(g, xi);
    ScaledTile(xi, g.width, t, s);
    assert x0 == (xi * t) * s;
    assert (End(xi, g.width, t) - xi * t) * s == End(xi, g.width, t) * s - (xi * t) * s;
    Span(x0, x0 + Min(t * s, g.width * s - x0))
  }

  /** Consecutive column slots touch, and the last one ends at the output
      width. */
  lemma SlotsContiguous(g: Shape, xi: nat)
    requires WellFormed(g) && xi < XTiles(g)
    ensures xi + 1 < XTiles(g) ==> Slot(g, xi).hi == Slot(g, xi + 1).lo
    ensures xi + 1 == XTiles(g) ==> Slot(g, xi).hi == g.width * g.scale
  {
    ScaledCount(g.width, g.tilesize, g.scale);
    TilesContiguous(xi, g.width * g.scale, g.tilesize * g.scale);
  }

  /** An earlier column slot ends before a later one starts. */
  lemma SlotsDisjoint(g: Shape, xi: nat, xj: nat)
    requires WellFormed(g) && xi < xj
    ensures Slot(g, xi).hi <= Slot(g, xj).lo
  {
    TilesDisjoint(xi, xj, g.width * g.scale, g.tilesize * g.scale);
  }

  /** The column slots of one band buffer are laid end to end across the
      output width: the first starts at 0, each one ends where the next
      starts, the last one ends at `width * scale`, and no two overlap. */
  lemma SlotsPartitionOutputWidth(g: Shape)
    requires WellFormed(g)
    ensures Slot(g, 0).lo == 0
    ensures forall xi: nat :: xi + 1 < XTiles(g) ==> Slot(g, xi).hi == Slot(g, xi + 1).lo
    ensures XTiles(g) > 0 ==> Slot(g, XTiles(g) - 1).hi == g.width * g.scale
    ensures forall xi: nat, xj: nat :: xi < xj ==> Slot(g, xi).hi <= Slot(g, xj).lo
  {
    forall xi: nat | xi + 1 < XTiles(g)
      ensures Slot(g, xi).hi == Slot(g, xi + 1).lo
    {
      SlotsContiguous(g, xi);
    }
    if XTiles(g) > 0 {
      SlotsContiguous(g, XTiles(g) - 1);
    }
    forall xi: nat, xj: nat | xi < xj
      ensures Slot(g, xi).hi <= Slot(g, xj).lo
    {
      SlotsDisjoint(g, xi, xj);
    }
  }

  /** The column slots of all xtiles tiles together cover [0, width * scale)
      and nothing else. */
  lemma SlotsCoverOutputWidth(g: Shape)
    requires WellFormed(g)
    ensures forall px :: px in Covered(XTiles(g), g.width * g.scale, g.tilesize * g.scale) <==> 0 <= px < g.width * g.scale
  {
    ScaledCount(g.width, g.tilesize, g.scale);
    TilesCover(g.width * g.scale, g.tilesize * g.scale);
  }

  /** The frame rows band yi produces (out_tile_y0 .. out_tile_y1). */
  function OutRows(g: Shape, yi: nat): (r: Span)
    requires WellFormed(g)
    ensures yi < YTiles(g) ==> r.Size() == TileHNoPad(g, yi)
  {
    var lo := yi * g.tilesize;
    assert Max(lo, 0) == lo;
    assert TileHNoPad(g, yi) == End(yi, g.height, g.tilesize) - lo;
    Span(Max(lo, 0), Min((yi + 1) * g.tilesize, g.height))
  }

  /** The output bands partition the frame rows: the first starts at 0, each
      one ends where the next starts, the last one ends at the frame height,
      no two overlap, and together they cover [0, height). */
  lemma BandsPartitionFrameRows(g: Shape)
    requires WellFormed(g)
    ensures YTiles(g) > 0 ==> OutRows(g, 0).lo == 0
    ensures forall yi: nat :: yi + 1 < YTiles(g) ==> OutRows(g, yi).hi == OutRows(g, yi + 1).lo
    ensures YTiles(g) > 0 ==> OutRows(g, YTiles(g) - 1).hi == g.height
    ensures forall yi: nat, yj: nat :: yi < yj ==> OutRows(g, yi).hi <= OutRows(g, yj).lo
    ensures forall py :: py in Covered(YTiles(g), g.height, g.tilesize) <==> 0 <= py < g.height
  {
    var t := g.tilesize;
    TilesCover(g.height, t);
    forall yi: nat | yi + 1 < YTiles(g)
      ensures OutRows(g, yi).hi == OutRows(g, yi + 1).lo
    {
      TilesContiguous(yi, g.height, t);
    }
    if YTiles(g) > 0 {
      TilesContiguous(YTiles(g) - 1, g.height, t);
    }
    forall yi: nat, yj: nat | yi < yj
      ensures OutRows(g, yi).hi <= OutRows(g, yj).lo
    {
      TilesDisjoint(yi, yj, g.height, t);
    }
  }

  /** The output rows band yi writes when it downloads its buffer: from
      `yi * T * scale`, as many as the band buffer has. They are band yi of
      the output height cut by the scaled tile size. */
  function DstRows(g: Shape, yi: nat): (r: Span)
    requires WellFormed(g)
    ensures r.lo == yi * (g.tilesize * g.scale)
    ensures r.hi == End(yi, g.height * g.scale, g.tilesize * g.scale)
    ensures r.Size() == BandBuffer(g, yi).h
  {
    var t := g.tilesize;
    var s := g.scale;
    var y0 := yi * t * s;
    ScaledTile(yi, g.height, t, s);
    assert y0 == (yi * t) * s;
    assert (Min((yi + 1) * t, g.height) - yi * t) * s == Min((yi + 1) * t, g.height) * s - (yi * t) * s;
    Span(y0, y0 + BandBuffer(g, yi).h)
  }

  /** Output pixel (px, py) lies in the output rectangle of tile (xi, yi):
      its column in the tile's slot and its row among band yi's rows. */
  predicate InOutputRect(g: Shape, xi: nat, yi: nat, px: int, py: int)
    requires WellFormed(g)
  {
    Slot(g, xi).lo <= px < Slot(g, xi).hi && DstRows(g, yi).lo <= py < DstRows(g, yi).hi
  }

  /** Every output column lies in exactly one column slot. */
  lemma ColumnOwner(g: Shape, px: int)
    requires WellFormed(g) && 0 <= px < g.width * g.scale
    ensures px / (g.tilesize * g.scale) < XTiles(g)
    ensures Slot(g, px / (g.tilesize * g.scale)).lo <= px < Slot(g, px / (g.tilesize * g.scale)).hi
    ensures forall xi: nat :: Slot(g, xi).lo <= px < Slot(g, xi).hi ==> xi == px / (g.tilesize * g.scale)
  {
    var t := g.tilesize * g.scale;
    ScaledCount(g.width, g.tilesize, g.scale);
    OwnerTile(g.width * g.scale, t, px);
    forall xi: nat | Slot(g, xi).lo <= px < Slot(g, xi).hi
      ensures xi == px / t
    {
      assert InTile(xi, g.width * g.scale, t, px);
    }
  }

  /** Every output row is written by exactly one band. */
  lemma RowOwner(g: Shape, py: int)
    requires WellFormed(g) && 0 <= py < g.height * g.scale
    ensures py / (g.tilesize * g.scale) < YTiles(g)
    ensures DstRows(g, py / (g.tilesize * g.scale)).lo <= py < DstRows(g, py / (g.tilesize * g.scale)).hi
    ensures forall yi: nat :: DstRows(g, yi).lo <= py < DstRows(g, yi).hi ==> yi == py / (g.tilesize * g.scale)
  {
    var t := g.tilesize * g.scale;
    ScaledCount(g.height, g.tilesize, g.scale);
    OwnerTile(g.height * g.scale, t, py);
    forall yi: nat | DstRows(g, yi).lo <= py < DstRows(g, yi).hi
      ensures yi == py / t
    {
      assert InTile(yi, g.height * g.scale, t, py);
    }
  }

  /** The output rectangles of the tiles partition the output image: every
      pixel of the `width * scale` by `height * scale` output lies in the
      rectangle of exactly one tile, the one at (px / (T * scale),
      py / (T * scale)), even though the padded input windows overlap. */
  lemma OutputTilesPartitionImage(g: Shape, px: int, py: int)
    requires WellFormed(g)
    requires 0 <= px < g.width * g.scale && 0 <= py < g.height * g.scale
    ensures px / (g.tilesize * g.scale) < XTiles(g)
    ensures py / (g.tilesize * g.scale) < YTiles(g)
    ensures InOutputRect(g, px / (g.tilesize * g.scale), py / (g.tilesize * g.scale), px, py)
    ensures forall xi: nat, yi: nat :: InOutputRect(g, xi, yi, px, py) ==>
              xi == px / (g.tilesize * g.scale) && yi == py / (g.tilesize * g.scale)
  {
    ColumnOwner(g, px);
    RowOwner(g, py);
  }

  /** Everything process hands the shaders for one tile. */
  datatype TileJob = TileJob(xi: nat, yi: nat, pre: PreprocConstants, post: PostprocConstants)

  function Job(g: Shape, xi: nat, yi: nat): TileJob
    requires WellFormed(g)
  {
    TileJob(xi, yi, Preproc(g, xi, yi), Postproc(g, xi, yi))
  }

  /** The tile loop of process: bands top to bottom, and within a band the
      column tiles left to right. Job k is the tile at (k mod xtiles,
      k div xtiles), so every tile is visited once, in row-major order. */
  method Schedule(g: Shape) returns (jobs: seq<TileJob>)
    requires WellFormed(g)
    ensures |jobs| == YTiles(g) * XTiles(g)
    ensures forall k :: 0 <= k < |jobs| ==>
      && jobs[k].xi < XTiles(g) && jobs[k].yi < YTiles(g)
      && jobs[k].yi * XTiles(g) + jobs[k].xi == k
      && jobs[k] == Job(g, jobs[k].xi, jobs[k].yi)
  {
    var xtiles := XTiles(g);
    var ytiles := YTiles(g);
    jobs := [];
    var yi := 0;
    while yi < ytiles
      invariant 0 <= yi <= ytiles
      invariant |jobs| == yi * xtiles
      invariant forall k :: 0 <= k < |jobs| ==>
        && jobs[k].xi < xtiles && jobs[k].yi < yi
        && jobs[k].yi * xtiles + jobs[k].xi == k
        && jobs[k] == Job(g, jobs[k].xi, jobs[k].yi)
    {
      var xi := 0;
      while xi < xtiles
        invariant 0 <= xi <= xtiles
        invariant |jobs| == yi * xtiles + xi
        invariant forall k :: 0 <= k < |jobs| ==>
          && jobs[k].xi < xtiles && jobs[k].yi <= yi
          && jobs[k].yi * xtiles + jobs[k].xi == k
          && jobs[k] == Job(g, jobs[k].xi, jobs[k].yi)
      {
        jobs := jobs + [Job(g, xi, yi)];
        xi := xi + 1;
      }
      assert (yi + 1) * xtiles == yi * xtiles + xtiles;
      yi := yi + 1;
    }
  }
}

=== FILE: host_index.dfy ===
/** Host-side index arithmetic of RealESRGAN::process: which element of the
    caller's source planes each band upload reads, where it lands in the
    staging matrix, which element of the downloaded band buffer each
    destination write takes, and which element of the caller's destination
    planes it writes. Offsets are in elements from the start of a plane;
    the three planes use the same offsets. */
module HostIndex {
  import opened Tiling
  import opened TileGeometry

  /** An offset `row * stride + col` with `0 <= col < stride` names row
      `row` and column `col`. */
  lemma RowColumn(row: int, col: int, stride: int)
    requires 0 < stride && 0 <= col < stride
    ensures (row * stride + col) / stride == row
    ensures (row * stride + col) % stride == col
  {
    var r := row * stride + col;
    var q := r / stride;
    var m := r % stride;
    assert r == q * stride + m;
    assert (q + 1) * stride == q * stride + stride;
    assert (row + 1) * stride == row * stride + stride;
    if q < row {
      MulMonotone(q + 1, row, stride);
      assert false;
    } else if q > row {
      MulMonotone(row + 1, q, stride);
      assert false;
    }
  }

  /** An offset `row * stride + col` with `0 <= row < rows` and
      `0 <= col < stride` lies in a plane of `rows` rows. */
  lemma RowColumnBound(row: int, col: int, stride: int, rows: int)
    requires 0 <= row < rows && 0 <= col < stride
    ensures 0 <= row * stride + col < rows * stride
  {
    MulMonotone(0, row, stride);
    MulMonotone(row + 1, rows, stride);
    assert (row + 1) * stride == row * stride + stride;
  }

  /** The source element read for staging element (x, y) of band yi: the
      row pointer starts `in_tile_y0 * src_stride` into the plane and the
      element is `src_stride * y + x` past it. Given a stride of at least
      the frame width, it is frame pixel (x, in_tile_y0 + y), inside the
      plane. */
  function SrcIndex(g: Shape, srcStride: int, yi: nat, y: int, x: int): (r: int)
    requires WellFormed(g) && yi < YTiles(g) && srcStride >= g.width
    requires 0 <= y < UploadRows(g, yi).Size() && 0 <= x < g.width
    ensures 0 <= r < g.height * srcStride
    ensures r / srcStride == UploadRows(g, yi).lo + y && r % srcStride == x
  {
    var row0 := UploadRows(g, yi).lo;
    var r := row0 * srcStride + srcStride * y + x;
    assert r == (row0 + y) * srcStride + x;
    RowColumn(row0 + y, x, srcStride);
    RowColumnBound(row0 + y, x, srcStride, g.height);
    r
  }

  /** Where staging element (x, y) of band yi is stored
      (`in_tile_w * y + x`): inside the `in_tile_w x in_tile_h` staging
      matrix, and distinct for distinct (x, y). */
  function StagingIndex(g: Shape, yi: nat, y: int, x: int): (r: int)
    requires WellFormed(g) && yi < YTiles(g)
    requires 0 <= y < UploadRows(g, yi).Size() && 0 <= x < g.width
    ensures 0 <= r < g.width * UploadRows(g, yi).Size()
    ensures r / g.width == y && r % g.width == x
  {
    RowColumn(y, x, g.width);
    RowColumnBound(y, x, g.width, UploadRows(g, yi).Size());
    g.width * y + x
  }

  /** The element of the downloaded band buffer that destination write
      (x, y) of band yi takes (`out.w * y + x`): inside the band buffer. */
  function BandIndex(g: Shape, yi: nat, y: int, x: int): (r: int)
    requires WellFormed(g) && yi < YTiles(g)
    requires 0 <= y < BandBuffer(g, yi).h && 0 <= x < BandBuffer(g, yi).w
    ensures 0 <= r < BandBuffer(g, yi).w * BandBuffer(g, yi).h
    ensures r / BandBuffer(g, yi).w == y && r % BandBuffer(g, yi).w == x
  {
    var w := BandBuffer(g, yi).w;
    RowColumn(y, x, w);
    RowColumnBound(y, x, w, BandBuffer(g, yi).h);
    w * y + x
  }

  /** The destination element written for band-buffer element (x, y) of
      band yi: the row pointer starts `yi * T * scale * dst_stride` into the
      plane and the element is `dst_stride * y + x` past it. Given a stride
      of at least the output width, it is output pixel (x, yi * T * scale +
      y), inside the `height * scale` rows of the output plane. */
  function DstIndex(g: Shape, dstStride: int, yi: nat, y: int, x: int): (r: int)
    requires WellFormed(g) && yi < YTiles(g) && dstStride >= g.width * g.scale
    requires 0 <= y < BandBuffer(g, yi).h && 0 <= x < BandBuffer(g, yi).w
    ensures 0 <= r < g.height * g.scale * dstStride
    ensures r / dstStride == DstRows(g, yi).lo + y && r % dstStride == x
  {
    var t := g.tilesize;
    var s := g.scale;
    var row0 := yi * t * s;
    var r := row0 * dstStride + dstStride * y + x;
    assert row0 == DstRows(g, yi).lo;
    assert r == (row0 + y) * dstStride + x;
    assert row0 + y < g.height * s;
    RowColumn(row0 + y, x, dstStride);
    RowColumnBound(row0 + y, x, dstStride, g.height * s);
    r
  }

  /** No destination element is written twice: distinct (band, row, column)
      triples of the download loops write distinct elements, so the bands'
      destination rows are disjoint. */
  lemma DstWritesDisjoint(g: Shape, dstStride: int, yi: nat, y: int, x: int, yj: nat, y': int, x': int)
    requires WellFormed(g) && dstStride >= g.width * g.scale
    requires yi < YTiles(g) && 0 <= y < BandBuffer(g, yi).h && 0 <= x < BandBuffer(g, yi).w
    requires yj < YTiles(g) && 0 <= y' < BandBuffer(g, yj).h && 0 <= x' < BandBuffer(g, yj).w
    ensures DstIndex(g, dstStride, yi, y, x) == DstIndex(g, dstStride, yj, y', x') ==>
              yi == yj && y == y' && x == x'
  {
    if DstIndex(g, dstStride, yi, y, x) == DstIndex(g, dstStride, yj, y', x') {
      var row := DstRows(g, yi).lo + y;
      assert row == DstRows(g, yj).lo + y';
      RowOwner(g, row);
    }
  }

  /** Every element of the `width * scale` by `height * scale` output is
      written: output pixel (col, row) is written by band row / (T * scale)
      at band-buffer element (col, row - that band's first output row). */
  lemma DstWritesCover(g: Shape, dstStride: int, row: int, col: int)
    requires WellFormed(g) && dstStride >= g.width * g.scale
    requires 0 <= row < g.height * g.scale && 0 <= col < g.width * g.scale
    ensures row / (g.tilesize * g.scale) < YTiles(g)
    ensures var yi := row / (g.tilesize * g.scale);
            var y := row - DstRows(g, yi).lo;
            && 0 <= y < BandBuffer(g, yi).h
            && DstIndex(g, dstStride, yi, y, col) == row * dstStride + col
  {
    RowOwner(g, row);
  }
}

=== FILE: options.dfy ===
/** Option validation and derivation of filterCreate: from the optional
    integer arguments of the RealESRGAN filter and facts about the host (the
    clip's video info, the plugin's path, whether the model files open, the
    GPUs ncnn reports) to either a session configuration or the message of
    the first check that fails. The checks run in a fixed order, so that
    order decides which message a bad call gets. */
module FilterOptions {
  import opened Wrappers
  import TileGeometry
  import Tiling

  /** The range of a C int. */
  const IntMin := -0x8000_0000
  const IntMax := 0x7fff_ffff

  type uint32 = x: int | 0 <= x < 0x1_0000_0000

  /** int64ToIntS: an int64 argument narrowed to int, saturating at the ends
      of the int range and exact inside it. */
  function ToIntS(i: int): (r: int)
    ensures IntMin <= r <= IntMax
    ensures IntMin <= i <= IntMax ==> r == i
    ensures r == i || r == IntMin || r == IntMax
  {
    if i > IntMax then IntMax else if i < IntMin then IntMin else i
  }

  datatype SampleType = Integer | Float

  datatype VideoFormat = VideoFormat(sampleType: SampleType, bitsPerSample: int)

  /** The input clip's video info; `format` is None for a clip whose format
      varies. */
  datatype VideoInfo = VideoInfo(format: Option<VideoFormat>, width: int, height: int)

  /** isConstantFormat: the clip has one format and fixed non-zero
      dimensions. */
  predicate IsConstantFormat(vi: VideoInfo)
  {
    vi.format.Some? && vi.width > 0 && vi.height > 0
  }

  /** The first check: the clip must be constant-format 32-bit float. The
      sample type is only inspected once the format is known constant. */
  predicate FormatSupported(vi: VideoInfo)
  {
    && IsConstantFormat(vi)
    && vi.format.value.sampleType != Integer
    && !(vi.format.value.sampleType == Float && vi.format.value.bitsPerSample != 32)
  }

  /** What ncnn reports of one GPU. */
  datatype GpuInfo = GpuInfo(heapBudget: uint32, transferQueueCount: uint32, computeQueueCount: uint32)

  /** The facts filterCreate consults besides its arguments. Whether both
      model files open is given as one boolean; ncnn's GPU count is the
      length of `gpus`. */
  datatype Host = Host(vi: VideoInfo, pluginPath: string, modelFilesReadable: bool, gpus: seq<GpuInfo>)

  /** The filter's optional arguments, as the int64 values VapourSynth holds;
      None when unset. */
  datatype Options = Options(
    scale: Option<int>, model: Option<int>, gpuId: Option<int>,
    tilesize: Option<int>, tilesizeY: Option<int>, gpuThread: Option<int>, tta: Option<int>)

  /** What a successful creation stores: the target clip size, the model
      files, the GPU, the RealESRGAN session parameters and the capacity of
      the GPU's semaphore. */
  datatype Config = Config(
    scale: int, targetWidth: int, targetHeight: int,
    paramPath: string, modelPath: string,
    gpuId: int, tilesize: int, prepadding: int, tta: bool, gpuThread: int)

  const FormatError := "only constant format 32 bits float input supported"
  const ScaleError := "model is only supported up to 4x scale"
  const ModelError := "invalid model type. Try 0, 1, 2"
  const FileError := "can't open model file"
  const GpuIdError := "invalid 'gpu_id'"
  const TileSizeError := "tilesize must be >= 32 or set as 0"
  const TileSizeYError := "tilesize_y must be >= 32 or set as 0"

  /** The fixed prepadding of every session. */
  const Prepadding := 10

  /** The scale: 2 when unset or below 2, otherwise the given value, which
      the next check bounds by 4. */
  function ResolveScale(arg: Option<int>): (r: int)
    ensures r >= 2
    ensures arg.None? ==> r == 2
    ensures arg.Some? ==> r == if ToIntS(arg.value) < 2 then 2 else ToIntS(arg.value)
  {
    var v := ToIntS(arg.GetOr(0));
    if arg.None? || v < 2 then 2 else v
  }

  /** The model id, 0 when unset. */
  function ResolveModel(arg: Option<int>): int
  {
    if arg.None? then 0 else ToIntS(arg.value)
  }

  predicate ValidModelId(model: int)
  {
    model == 0 || model == 1 || model == 2
  }

  /** find_last_of('/'): the index of the last '/' in s, or -1 (npos) when
      there is none. */
  function LastSlash(s: string): (r: int)
    ensures -1 <= r < |s|
    ensures r >= 0 ==> s[r] == '/'
    ensures forall j :: r < j < |s| ==> s[j] != '/'
  {
    if |s| == 0 then -1
    else if s[|s| - 1] == '/' then |s| - 1
    else LastSlash(s[..|s| - 1])
  }

  /** The plugin's directory: the plugin path up to, not including, its
      last '/'; substr(0, npos) keeps the whole path when there is no '/'. */
  function PluginDir(path: string): (r: string)
    ensures r <= path
    ensures '/' !in path ==> r == path
    ensures '/' in path ==> |r| < |path| && path[|r|] == '/' && '/' !in path[|r| + 1..]
  {
    var k := LastSlash(path);
    if k < 0 then path else path[..k]
  }

  /** std::format("{}", d) for a one-digit d. */
  function DigitText(d: int): (r: string)
    requires 0 <= d <= 9
    ensures |r| == 1 && '0' <= r[0] <= '9'
    ensures r[0] as int - '0' as int == d
  {
    [('0' as int + d) as char]
  }

  /** The model file stem for a model id at a given scale: model 0 has one
      network per scale, models 1 and 2 are 4x networks named without it. */
  function ModelStem(model: int, scale: int): (r: Option<string>)
    requires 2 <= scale <= 4
    ensures r.Some? <==> ValidModelId(model)
  {
    if model == 0 then Some("realesr-animevideov3-x" + DigitText(scale))
    else if model == 1 then Some("realesrgan-x4plus-anime")
    else if model == 2 then Some("realesrgan-x4plus")
    else None
  }

  /** The heap-budget policy for tilesize 0: bigger budgets get bigger tiles,
      and every budget gets at least 32. */
  function AutoTileSize(heapBudget: uint32): (r: int)
    ensures r == 32 || r == 100 || r == 200 || r == 400
    ensures heapBudget > 2600 <==> r == 400
    ensures heapBudget > 740 <==> r >= 200
    ensures heapBudget <= 250 <==> r == 32
  {
    if heapBudget > 2600 then 400
    else if heapBudget > 740 then 200
    else if heapBudget > 250 then 100
    else 32
  }

  /** A larger heap budget never yields a smaller tile. */
  lemma AutoTileSizeMonotone(a: uint32, b: uint32)
    requires a <= b
    ensures AutoTileSize(a) <= AutoTileSize(b)
  {
  }

  /** The tile size check applies to tilesize and, identically, to
      tilesize_y: 0 (automatic) or at least 32. */
  predicate TileSizeAccepted(v: int)
  {
    v == 0 || v >= 32
  }

  /** The semaphore capacity: a positive gpu_thread argument, otherwise the
      GPU's transfer queue count, and in either case no more than its
      compute queue count. An unset gpu_thread reads as 0. */
  function GpuThreads(arg: Option<int>, gpu: GpuInfo): (r: int)
    ensures 0 <= r <= ToIntS(gpu.computeQueueCount)
    ensures var custom := ToIntS(arg.GetOr(0));
            && (0 < custom <= ToIntS(gpu.computeQueueCount) ==> r == custom)
            && (custom > ToIntS(gpu.computeQueueCount) ==> r == ToIntS(gpu.computeQueueCount))
            && (custom <= 0 ==> r <= ToIntS(gpu.transferQueueCount))
            && (custom <= 0 ==> r == ToIntS(gpu.transferQueueCount) || r == ToIntS(gpu.computeQueueCount))
  {
    var custom := ToIntS(arg.GetOr(0));
    var threads := if custom > 0 then custom else ToIntS(gpu.transferQueueCount);
    var compute := ToIntS(gpu.computeQueueCount);
    if compute < threads then compute else threads
  }

  /** What every configuration filterCreate accepts satisfies. */
  predicate ValidConfig(c: Config, h: Host)
  {
    && (c.scale == 2 || c.scale == 3 || c.scale == 4)
    && c.targetWidth == h.vi.width * c.scale && c.targetHeight == h.vi.height * c.scale
    && 0 <= c.gpuId < |h.gpus|
    && c.tilesize >= 32
    && c.prepadding == Prepadding
    && 0 <= c.gpuThread <= ToIntS(h.gpus[c.gpuId].computeQueueCount)
    && PluginDir(h.pluginPath) + "/models/" <= c.paramPath
    && PluginDir(h.pluginPath) + "/models/" <= c.modelPath
  }

  /** The validation and derivation part of filterCreate. */
  function Create(o: Options, h: Host): (r: Result<Config, string>)
    ensures r.Success? ==> ValidConfig(r.value, h)
  {
    if !FormatSupported(h.vi) then Failure(FormatError)
    else
      var scale := ResolveScale(o.scale);
      if scale > 4 then Failure(ScaleError)
      else
        var model := ResolveModel(o.model);
        match ModelStem(model, scale)
        case None => Failure(ModelError)
        case Some(stem) =>
          var prefix := PluginDir(h.pluginPath) + "/models/";
          var paramPath := prefix + stem + ".param";
          var modelPath := prefix + stem + ".bin";
          assert prefix <= paramPath && prefix <= modelPath;
          if !h.modelFilesReadable then Failure(FileError)
          else
            var gpuId := ToIntS(o.gpuId.GetOr(0));
            if gpuId < 0 || gpuId >= |h.gpus| then Failure(GpuIdError)
            else
              var tilesize := if o.tilesize.None? then 100 else ToIntS(o.tilesize.value);
              if !TileSizeAccepted(tilesize) then Failure(TileSizeError)
              else
                var tilesizeY := if o.tilesizeY.None? then tilesize else ToIntS(o.tilesizeY.value);
                if !TileSizeAccepted(tilesizeY) then Failure(TileSizeYError)
                else
                  var gpu := h.gpus[gpuId];
                  var tile := if tilesize == 0 then AutoTileSize(gpu.heapBudget) else tilesize;
                  Success(Config(scale, h.vi.width * scale, h.vi.height * scale,
                                 paramPath, modelPath, gpuId, tile, Prepadding,
                                 o.tta.GetOr(0) != 0, GpuThreads(o.gpuThread, gpu)))
  }

  /** One check of filterCreate: whether it fails, and with which message. */
  datatype Check = Check(fails: bool, message: string)

  /** The checks of filterCreate in the order they run, each stated on the
      resolved argument values alone. */
  function Checks(o: Options, h: Host): seq<Check>
  {
    var scale := ResolveScale(o.scale);
    var gpuId := ToIntS(o.gpuId.GetOr(0));
    var tilesize := if o.tilesize.None? then 100 else ToIntS(o.tilesize.value);
    var tilesizeY := if o.tilesizeY.None? then tilesize else ToIntS(o.tilesizeY.value);
    [ Check(!FormatSupported(h.vi), FormatError),
      Check(scale > 4, ScaleError),
      Check(!ValidModelId(ResolveModel(o.model)), ModelError),
      Check(!h.modelFilesReadable, FileError),
      Check(gpuId < 0 || gpuId >= |h.gpus|, GpuIdError),
      Check(!TileSizeAccepted(tilesize), TileSizeError),
      Check(!TileSizeAccepted(tilesizeY), TileSizeYError) ]
  }

  /** The message of the first failing check at index i or later, if any. */
  function FailFrom(checks: seq<Check>, i: nat): (r: Option<string>)
    requires i <= |checks|
    ensures r.None? <==> forall j :: i <= j < |checks| ==> !checks[j].fails
    ensures r.Some? ==> exists j :: i <= j < |checks| && checks[j].fails && checks[j].message == r.value
                                    && forall k :: i <= k < j ==> !checks[k].fails
    decreases |checks| - i
  {
    if i == |checks| then None
    else if checks[i].fails then Some(checks[i].message)
    else FailFrom(checks, i + 1)
  }

  /** The message of the first failing check, if any. */
  function FirstFailure(checks: seq<Check>): Option<string>
  {
    FailFrom(checks, 0)
  }

  /** Creation fails exactly when some check fails, and then with the
      message of the first failing check in the order filterCreate runs
      them. */
  lemma CreateReportsFirstFailedCheck(o: Options, h: Host)
    ensures Create(o, h).Failure? <==> FirstFailure(Checks(o, h)).Some?
    ensures Create(o, h).Failure? ==> Create(o, h).error == FirstFailure(Checks(o, h)).value
  {
    var cs := Checks(o, h);
    var r := Create(o, h);
    assert FailFrom(cs, 7) == None;
    if cs[0].fails {
      assert r == Failure(FormatError);
    } else if cs[1].fails {
      assert r == Failure(ScaleError);
    } else if cs[2].fails {
      assert ModelStem(ResolveModel(o.model), ResolveScale(o.scale)).None?;
      assert r == Failure(ModelError);
    } else {
      assert ModelStem(ResolveModel(o.model), ResolveScale(o.scale)).Some?;
      assert FailFrom(cs, 0) == FailFrom(cs, 3);
      if cs[3].fails {
        assert r == Failure(FileError);
      } else if cs[4].fails {
        assert r == Failure(GpuIdError);
      } else if cs[5].fails {
        assert r == Failure(TileSizeError);
      } else if cs[6].fails {
        assert r == Failure(TileSizeYError);
      } else {
        assert r.Success?;
      }
    }
  }

  /** The scale rule: on success the scale is the given one when it is 2, 3
      or 4, and 2 when unset or smaller; a larger one is refused once the
      format is accepted. The target clip is the input scaled. */
  lemma CreateScale(o: Options, h: Host)
    ensures Create(o, h).Success? ==>
      && Create(o, h).value.scale == ResolveScale(o.scale)
      && Create(o, h).value.targetWidth == h.vi.width * Create(o, h).value.scale
      && Create(o, h).value.targetHeight == h.vi.height * Create(o, h).value.scale
    ensures FormatSupported(h.vi) && ResolveScale(o.scale) > 4 ==> Create(o, h) == Failure(ScaleError)
    ensures o.scale.Some? && 2 <= o.scale.value <= 4 && Create(o, h).Success? ==>
      Create(o, h).value.scale == o.scale.value
  {
  }

  /** The model id is checked before the files and the GPU: an unknown id is
      reported as such whatever the files and the GPUs are. */
  lemma ModelIdCheckedBeforeFilesAndGpu(o: Options, h: Host, readable: bool, gpus: seq<GpuInfo>)
    requires FormatSupported(h.vi) && ResolveScale(o.scale) <= 4
    requires !ValidModelId(ResolveModel(o.model))
    ensures Create(o, h) == Failure(ModelError)
    ensures Create(o, h.(modelFilesReadable := readable, gpus := gpus)) == Failure(ModelError)
  {
  }

  /** Both model paths are the plugin directory followed by
      "/models/<stem>", the one ending in ".param" and the other in ".bin";
      model 0 (also when unset) names the scale in its stem, models 1 and 2
      do not. */
  lemma CreatePaths(o: Options, h: Host)
    requires Create(o, h).Success?
    ensures var c := Create(o, h).value;
            var prefix := PluginDir(h.pluginPath) + "/models/";
            && (ResolveModel(o.model) == 0 ==>
                  c.paramPath == prefix + "realesr-animevideov3-x" + DigitText(c.scale) + ".param"
                  && c.modelPath == prefix + "realesr-animevideov3-x" + DigitText(c.scale) + ".bin")
            && (ResolveModel(o.model) == 1 ==>
                  c.paramPath == prefix + "realesrgan-x4plus-anime.param"
                  && c.modelPath == prefix + "realesrgan-x4plus-anime.bin")
            && (ResolveModel(o.model) == 2 ==>
                  c.paramPath == prefix + "realesrgan-x4plus.param"
                  && c.modelPath == prefix + "realesrgan-x4plus.bin")
  {
    var c := Create(o, h).value;
    var prefix := PluginDir(h.pluginPath) + "/models/";
    var model := ResolveModel(o.model);
    if model == 0 {
      assert prefix + ("realesr-animevideov3-x" + DigitText(c.scale)) + ".param"
          == prefix + "realesr-animevideov3-x" + DigitText(c.scale) + ".param";
      assert prefix + ("realesr-animevideov3-x" + DigitText(c.scale)) + ".bin"
          == prefix + "realesr-animevideov3-x" + DigitText(c.scale) + ".bin";
    } else if model == 1 {
      assert prefix + "realesrgan-x4plus-anime" + ".param" == prefix + "realesrgan-x4plus-anime.param";
      assert prefix + "realesrgan-x4plus-anime" + ".bin" == prefix + "realesrgan-x4plus-anime.bin";
    } else {
      assert prefix + "realesrgan-x4plus" + ".param" == prefix + "realesrgan-x4plus.param";
      assert prefix + "realesrgan-x4plus" + ".bin" == prefix + "realesrgan-x4plus.bin";
    }
  }

  /** gpu_id defaults to 0; once the earlier checks pass, an id outside
      [0, gpu count) is refused and any other is stored. */
  lemma CreateGpuId(o: Options, h: Host)
    ensures Create(o, h).Success? ==> Create(o, h).value.gpuId == ToIntS(o.gpuId.GetOr(0))
    ensures var gpuId := ToIntS(o.gpuId.GetOr(0));
            && FormatSupported(h.vi) && ResolveScale(o.scale) <= 4
            && ValidModelId(ResolveModel(o.model)) && h.modelFilesReadable
            ==> (Create(o, h) == Failure(GpuIdError) <==> gpuId < 0 || gpuId >= |h.gpus|)
  {
  }

  /** The tile size rule: unset means 100; a non-zero value below 32,
      negative ones included, is refused; a value of at least 32 is stored
      as given; 0 is replaced by the heap-budget policy of the chosen GPU. */
  lemma CreateTileSize(o: Options, h: Host)
    ensures Create(o, h).Success? && o.tilesize.None? ==> Create(o, h).value.tilesize == 100
    ensures Create(o, h).Success? && o.tilesize.Some? && ToIntS(o.tilesize.value) != 0 ==>
      Create(o, h).value.tilesize == ToIntS(o.tilesize.value)
    ensures Create(o, h).Success? && o.tilesize.Some? && ToIntS(o.tilesize.value) == 0 ==>
      Create(o, h).value.tilesize == AutoTileSize(h.gpus[Create(o, h).value.gpuId].heapBudget)
    ensures o.tilesize.Some? && ToIntS(o.tilesize.value) != 0 && ToIntS(o.tilesize.value) < 32 ==>
      Create(o, h).Failure?
  {
  }

  /** tilesize_y is checked but never stored: it cannot change a successful
      configuration, and left unset (it defaults to tilesize, already
      checked) it never fails. */
  lemma TileSizeYNeverStored(o: Options, h: Host, y: Option<int>)
    ensures Create(o, h).Success? && Create(o.(tilesizeY := y), h).Success? ==>
      Create(o.(tilesizeY := y), h) == Create(o, h)
    ensures o.tilesizeY.None? ==> Create(o, h) != Failure(TileSizeYError)
  {
  }

  /** The semaphore capacity never exceeds the chosen GPU's compute queue
      count, and a positive gpu_thread within it is used as given. */
  lemma CreateCapacity(o: Options, h: Host)
    requires Create(o, h).Success?
    ensures var c := Create(o, h).value;
            && c.gpuThread <= ToIntS(h.gpus[c.gpuId].computeQueueCount)
            && c.gpuThread == GpuThreads(o.gpuThread, h.gpus[c.gpuId])
  {
  }

  /** An accepted configuration gives process a frame shape it can tile:
      the clip is non-empty and the tile size is non-zero. */
  lemma CreateGivesProcessableShape(o: Options, h: Host)
    requires Create(o, h).Success?
    ensures h.vi.width > 0 && h.vi.height > 0
    ensures var c := Create(o, h).value;
            TileGeometry.WellFormed(TileGeometry.Shape(h.vi.width, h.vi.height, c.tilesize, c.prepadding, c.scale))
  {
  }

  /** A 64x64 32-bit float clip with every argument unset is accepted at
      the defaults: scale 2, model 0, GPU 0, tilesize 100, and the
      semaphore capacity of the GPU's two queues; with the model files
      unreadable the same call fails with the file error. */
  lemma DefaultsExample()
    ensures var vi := VideoInfo(Some(VideoFormat(Float, 32)), 64, 64);
            var h := Host(vi, "/plugins/libvsrealesrgan.so", true, [GpuInfo(1000, 2, 2)]);
            var o := Options(None, None, None, None, None, None, None);
            && Create(o, h).Success?
            && Create(o, h).value.scale == 2 && Create(o, h).value.targetWidth == 128
            && Create(o, h).value.gpuId == 0 && Create(o, h).value.tilesize == 100
            && Create(o, h).value.gpuThread == 2 && !Create(o, h).value.tta
            && Create(o, h.(modelFilesReadable := false)) == Failure(FileError)
  {
    var vi := VideoInfo(Some(VideoFormat(Float, 32)), 64, 64);
    var h := Host(vi, "/plugins/libvsrealesrgan.so", true, [GpuInfo(1000, 2, 2)]);
    var o := Options(None, None, None, None, None, None, None);
    assert FormatSupported(vi);
    assert ResolveScale(o.scale) == 2 && ResolveModel(o.model) == 0;
    assert ModelStem(0, 2).Some?;
    assert ToIntS(o.gpuId.GetOr(0)) == 0;
    assert GpuThreads(o.gpuThread, h.gpus[0]) == 2;
  }

  /** The tile size check has no upper bound: a 4x session with a tile size
      of 10^9 is accepted and keeps that tile size, although
      `tilesize * scale`, which process computes in int, exceeds IntMax. */
  lemma OversizedTileAccepted()
    ensures var vi := VideoInfo(Some(VideoFormat(Float, 32)), 64, 64);
            var h := Host(vi, "/plugins/libvsrealesrgan.so", true, [GpuInfo(1000, 2, 2)]);
            var o := Options(Some(4), None, None, Some(1_000_000_000), None, None, None);
            && Create(o, h).Success?
            && Create(o, h).value.scale == 4 && Create(o, h).value.tilesize == 1_000_000_000
            && Create(o, h).value.tilesize * Create(o, h).value.scale > IntMax
  {
    var vi := VideoInfo(Some(VideoFormat(Float, 32)), 64, 64);
    var h := Host(vi, "/plugins/libvsrealesrgan.so", true, [GpuInfo(1000, 2, 2)]);
    var o := Options(Some(4), None, None, Some(1_000_000_000), None, None, None);
    assert FormatSupported(vi);
    assert ResolveScale(o.scale) == 4 && ResolveModel(o.model) == 0;
    assert ModelStem(0, 4).Some?;
    assert ToIntS(o.gpuId.GetOr(0)) == 0;
    assert ToIntS(o.tilesize.value) == 1_000_000_000;
    assert GpuThreads(o.gpuThread, h.gpus[0]) == 2;
  }

  /** A tile size beyond the int range saturates to IntMax and is accepted.
      On a 1x1 clip that session has one band, yet the end of its uploaded
      rows, `(yi + 1) * T + prepadding`, which process computes in int,
      exceeds IntMax. */
  lemma SaturatedTileAccepted()
    ensures var vi := VideoInfo(Some(VideoFormat(Float, 32)), 1, 1);
            var h := Host(vi, "/plugins/libvsrealesrgan.so", true, [GpuInfo(1000, 2, 2)]);
            var o := Options(None, None, None, Some(0x100_0000_0000), None, None, None);
            && Create(o, h).Success?
            && Create(o, h).value.tilesize == IntMax
            && TileGeometry.YTiles(TileGeometry.Shape(1, 1, IntMax, Prepadding, 2)) == 1
            && (0 + 1) * Create(o, h).value.tilesize + Create(o, h).value.prepadding > IntMax
  {
    var vi := VideoInfo(Some(VideoFormat(Float, 32)), 1, 1);
    var h := Host(vi, "/plugins/libvsrealesrgan.so", true, [GpuInfo(1000, 2, 2)]);
    var o := Options(None, None, None, Some(0x100_0000_0000), None, None, None);
    assert FormatSupported(vi);
    assert ResolveScale(o.scale) == 2 && ResolveModel(o.model) == 0;
    assert ModelStem(0, 2).Some?;
    assert ToIntS(o.gpuId.GetOr(0)) == 0;
    assert ToIntS(o.tilesize.value) == IntMax;
    assert GpuThreads(o.gpuThread, h.gpus[0]) == 2;
    Tiling.CountUnique(1, IntMax, 1);
  }

  /** The factor the loaded network upscales by. Model 0 loads the
      animevideov3 network named for the session's scale; models 1 and 2
      load x4plus networks, which upscale by 4 whatever the scale. */
  function NetworkScale(model: int, scale: int): (r: int)
    requires ValidModelId(model) && 2 <= scale <= 4
    ensures 2 <= r <= 4
    ensures r == scale <==> model == 0 || scale == 4
  {
    if model == 0 then scale else 4
  }

  /** The scale is never tied to the model: model 1 at the default scale 2
      is accepted, although its network upscales by 4. */
  lemma FixedScaleModelAccepted()
    ensures var vi := VideoInfo(Some(VideoFormat(Float, 32)), 64, 64);
            var h := Host(vi, "/plugins/libvsrealesrgan.so", true, [GpuInfo(1000, 2, 2)]);
            var o := Options(None, Some(1), None, None, None, None, None);
            && Create(o, h).Success?
            && Create(o, h).value.scale == 2
            && NetworkScale(ResolveModel(o.model), Create(o, h).value.scale) == 4
  {
    var vi := VideoInfo(Some(VideoFormat(Float, 32)), 64, 64);
    var h := Host(vi, "/plugins/libvsrealesrgan.so", true, [GpuInfo(1000, 2, 2)]);
    var o := Options(None, Some(1), None, None, None, None, None);
    assert FormatSupported(vi);
    assert ResolveScale(o.scale) == 2 && ResolveModel(o.model) == 1;
    assert ModelStem(1, 2) == Some("realesrgan-x4plus-anime");
    assert ToIntS(o.gpuId.GetOr(0)) == 0;
    assert GpuThreads(o.gpuThread, h.gpus[0]) == 2;
  }

  /** process assumes the network output is the padded window times the
      session scale and crops `P * scale` from each side. For the session
      of FixedScaleModelAccepted (a 64x64 clip, tile size 100, scale 2) the
      4x network's output of the first tile, cropped that way, is 296
      columns wide where the slot is 128. */
  lemma FixedScaleModelCropMismatch()
    ensures TileGeometry.TileWindow(TileGeometry.Shape(64, 64, 100, Prepadding, 2), 0, 0).cols.Size() * NetworkScale(1, 2)
            - 2 * TileGeometry.Postproc(TileGeometry.Shape(64, 64, 100, Prepadding, 2), 0, 0).cropLeft == 296
    ensures TileGeometry.Postproc(TileGeometry.Shape(64, 64, 100, Prepadding, 2), 0, 0).slotW == 128
  {
    var g := TileGeometry.Shape(64, 64, 100, Prepadding, 2);
    assert TileGeometry.Postproc(g, 0, 0).cropLeft == 20;
    assert TileGeometry.TileWindow(g, 0, 0).cols.Size() == 84;
  }

  /** The automatic policy picks 400 for a heap budget of 3000. */
  lemma AutoTileSizeExample()
    ensures AutoTileSize(3000) == 400
  {
  }
}

=== FILE: registry.dfy ===
/** The plugin's global bookkeeping as a sequential state machine: the
    filter instance count that decides when the ncnn GPU instance is created
    and destroyed, and the map from GPU id to the semaphore every session on
    that GPU shares. Creation takes the lock twice, once to count the new
    instance and once, after validation, to register its semaphore or to
    undo the count; the two halves are separate steps here, and `pending`
    counts the creations between them. `sessions` holds the GPU id of each
    live filter instance, and each slot's `inFlight` the permits currently
    held on it; both exist only to state the invariants. */
module Registry {
  import opened Wrappers
  import Gate
  import FilterOptions

  /** The semaphore of one GPU, the capacity it was created with and the
      number of process calls holding one of its permits. */
  datatype GpuSlot = GpuSlot(sem: Gate.Semaphore, capacity: int, inFlight: nat)

  datatype State = State(
    count: int, gpuAlive: bool, slots: map<int, GpuSlot>,
    pending: nat, sessions: multiset<int>)

  /** Before any filter is created. */
  const Init := State(0, false, map[], 0, multiset{})

  /** The invariant the bookkeeping keeps. It does not include "no
      semaphores while no instance exists": see SemaphoresCanOutliveInstance. */
  predicate Valid(s: State)
  {
    && s.count == s.pending + |s.sessions|
    && (s.gpuAlive <==> s.count > 0)
    && (forall g :: g in s.sessions ==> g in s.slots)
    && (forall g :: g in s.slots ==>
          0 <= s.slots[g].sem.val && s.slots[g].sem.val + s.slots[g].inFlight == s.slots[g].capacity)
  }

  /** The first locked block of filterCreate: the GPU instance is created
      when no filter instance exists, and the count goes up. */
  function Enter(s: State): (r: State)
    ensures r.count == s.count + 1
    ensures s.count == 0 ==> r.gpuAlive
    ensures s.count != 0 ==> r.gpuAlive == s.gpuAlive
    ensures r.slots == s.slots && r.sessions == s.sessions && r.pending == s.pending + 1
  {
    State(s.count + 1, s.gpuAlive || s.count == 0, s.slots, s.pending + 1, s.sessions)
  }

  /** The end of a successful filterCreate: a semaphore of the given
      capacity is registered for the GPU only if it has none yet, and the
      new instance shares the GPU's semaphore. */
  function Commit(s: State, gpuId: int, capacity: int): (r: State)
    requires s.pending > 0
    ensures gpuId in r.slots && r.sessions == s.sessions + multiset{gpuId}
    ensures gpuId in s.slots ==> r.slots == s.slots
    ensures gpuId !in s.slots ==> r.slots[gpuId] == GpuSlot(Gate.Semaphore(capacity), capacity, 0)
    ensures forall g :: g != gpuId ==> (g in r.slots <==> g in s.slots)
    ensures forall g :: g != gpuId && g in s.slots ==> r.slots[g] == s.slots[g]
    ensures r.count == s.count && r.gpuAlive == s.gpuAlive && r.pending == s.pending - 1
  {
    var slots := if gpuId in s.slots then s.slots
                 else s.slots[gpuId := GpuSlot(Gate.Semaphore(capacity), capacity, 0)];
    State(s.count, s.gpuAlive, slots, s.pending - 1, s.sessions + multiset{gpuId})
  }

  /** The catch block of filterCreate: the count goes back down, and the GPU
      instance is destroyed if it reaches zero; the semaphore map is not
      touched. */
  function Abort(s: State): (r: State)
    requires s.pending > 0
    ensures r.count == s.count - 1 && r.pending == s.pending - 1
    ensures r.slots == s.slots && r.sessions == s.sessions
    ensures r.count == 0 ==> !r.gpuAlive
    ensures r.count != 0 ==> r.gpuAlive == s.gpuAlive
  {
    var count := s.count - 1;
    State(count, if count == 0 then false else s.gpuAlive, s.slots, s.pending - 1, s.sessions)
  }

  /** The rest of filterCreate after the first locked block: the options
      are validated against the host, and the creation commits with the
      session's GPU and semaphore capacity or aborts. */
  function FinishCreate(s: State, o: FilterOptions.Options, h: FilterOptions.Host): State
    requires s.pending > 0
  {
    match FilterOptions.Create(o, h)
    case Success(c) => Commit(s, c.gpuId, c.gpuThread)
    case Failure(_) => Abort(s)
  }

  /** The error filterCreate reports: the validation message after the
      filter's name. */
  function ErrorText(e: string): (r: string)
    ensures |r| == 12 + |e| && r[..12] == "RealESRGAN: " && r[12..] == e
  {
    "RealESRGAN: " + e
  }

  /** The error a filterCreate call reports through setError: none when
      creation succeeds, otherwise the filter's name followed by the message
      of the first check that fails. */
  function ReportedError(o: FilterOptions.Options, h: FilterOptions.Host): (r: Option<string>)
    ensures r.Some? <==> FilterOptions.FirstFailure(FilterOptions.Checks(o, h)).Some?
    ensures r.Some? ==> r.value == ErrorText(FilterOptions.FirstFailure(FilterOptions.Checks(o, h)).value)
  {
    FilterOptions.CreateReportsFirstFailedCheck(o, h);
    match FilterOptions.Create(o, h)
    case Success(_) => None
    case Failure(e) => Some(ErrorText(e))
  }

  /** filterFree for an instance on the given GPU: the count goes down, and
      when it reaches zero the GPU instance is destroyed and every semaphore
      is deleted. */
  function Free(s: State, gpuId: int): (r: State)
    requires gpuId in s.sessions
    ensures r.count == s.count - 1 && r.pending == s.pending
    ensures r.sessions == s.sessions - multiset{gpuId}
    ensures r.count == 0 ==> !r.gpuAlive && r.slots == map[]
    ensures r.count != 0 ==> r.gpuAlive == s.gpuAlive && r.slots == s.slots
  {
    var count := s.count - 1;
    if count == 0 then State(count, false, map[], s.pending, s.sessions - multiset{gpuId})
    else State(count, s.gpuAlive, s.slots, s.pending, s.sessions - multiset{gpuId})
  }

  /** The wait before RealESRGAN::process on the GPU's semaphore: None while
      the semaphore has no permit left (the call blocks); otherwise one more
      call is in flight, and nothing but that GPU's slot changes. */
  function Wait(s: State, gpuId: int): (r: Option<State>)
    requires gpuId in s.slots
    ensures r.Some? <==> s.slots[gpuId].sem.val > 0
    ensures r.Some? ==> gpuId in r.value.slots
                        && r.value.slots[gpuId].inFlight == s.slots[gpuId].inFlight + 1
                        && r.value.slots[gpuId].sem.val == s.slots[gpuId].sem.val - 1
                        && r.value.slots[gpuId].capacity == s.slots[gpuId].capacity
    ensures r.Some? ==> r.value == s.(slots := s.slots[gpuId := r.value.slots[gpuId]])
  {
    var slot := s.slots[gpuId];
    match Gate.Wait(slot.sem)
    case None => None
    case Some(sem) => Some(s.(slots := s.slots[gpuId := GpuSlot(sem, slot.capacity, slot.inFlight + 1)]))
  }

  /** The signal after RealESRGAN::process: the permit taken by the
      matching wait is returned, and nothing but that GPU's slot changes. */
  function Signal(s: State, gpuId: int): (r: State)
    requires gpuId in s.slots && s.slots[gpuId].inFlight > 0
    ensures gpuId in r.slots
    ensures r.slots[gpuId].inFlight == s.slots[gpuId].inFlight - 1
    ensures r.slots[gpuId].sem.val == s.slots[gpuId].sem.val + 1
    ensures r.slots[gpuId].capacity == s.slots[gpuId].capacity
    ensures r == s.(slots := s.slots[gpuId := r.slots[gpuId]])
  {
    var slot := s.slots[gpuId];
    s.(slots := s.slots[gpuId := GpuSlot(Gate.Signal(slot.sem), slot.capacity, slot.inFlight - 1)])
  }

  lemma InitValid()
    ensures Valid(Init)
  {
  }

  lemma EnterKeepsValid(s: State)
    requires Valid(s)
    ensures Valid(Enter(s))
  {
  }

  lemma FinishCreateKeepsValid(s: State, o: FilterOptions.Options, h: FilterOptions.Host)
    requires Valid(s) && s.pending > 0
    ensures Valid(FinishCreate(s, o, h))
  {
    var r := FinishCreate(s, o, h);
    match FilterOptions.Create(o, h)
    case Success(c) =>
      assert c.gpuThread >= 0;
      forall g | g in r.sessions
        ensures g in r.slots
      {
        if g != c.gpuId {
          assert g in s.sessions;
        }
      }
    case Failure(_) =>
  }

  lemma FreeKeepsValid(s: State, gpuId: int)
    requires Valid(s) && gpuId in s.sessions
    ensures Valid(Free(s, gpuId))
  {
    var r := Free(s, gpuId);
    forall g | g in r.sessions
      ensures g in r.slots
    {
      assert g in s.sessions;
    }
  }

  lemma WaitKeepsValid(s: State, gpuId: int)
    requires Valid(s) && gpuId in s.slots && Wait(s, gpuId).Some?
    ensures Valid(Wait(s, gpuId).value)
  {
  }

  lemma SignalKeepsValid(s: State, gpuId: int)
    requires Valid(s) && gpuId in s.slots && s.slots[gpuId].inFlight > 0
    ensures Valid(Signal(s, gpuId))
  {
  }

  /** The GPU instance is created exactly when the count goes from 0 to 1. */
  lemma EnterCreatesInstanceOnFirst(s: State)
    requires Valid(s)
    ensures !s.gpuAlive && Enter(s).gpuAlive <==> s.count == 0
  {
  }

  /** The GPU instance is destroyed, and the semaphore map emptied, exactly
      when the last instance is freed. */
  lemma FreeDestroysInstanceOnLast(s: State, gpuId: int)
    requires Valid(s) && gpuId in s.sessions
    ensures s.gpuAlive && !Free(s, gpuId).gpuAlive <==> s.count == 1
    ensures Free(s, gpuId).slots == map[] <==> s.count == 1
  {
  }

  /** A failed creation leaves no trace: the count is back to its value
      before the call and the semaphore map is untouched. */
  lemma FailedCreateRestores(s: State, o: FilterOptions.Options, h: FilterOptions.Host)
    requires Valid(s) && FilterOptions.Create(o, h).Failure?
    ensures FinishCreate(Enter(s), o, h) == s
  {
  }

  /** A successful creation registers the session on its GPU, whose
      semaphore is the one already there if another session created it,
      and otherwise a fresh one whose capacity is the session's
      gpu_thread rule. */
  lemma SuccessfulCreateShares(s: State, o: FilterOptions.Options, h: FilterOptions.Host)
    requires Valid(s) && FilterOptions.Create(o, h).Success?
    ensures var c := FilterOptions.Create(o, h).value;
            var r := FinishCreate(Enter(s), o, h);
            && r.count == s.count + 1 && r.gpuAlive
            && r.pending == s.pending
            && r.sessions == s.sessions + multiset{c.gpuId}
            && (c.gpuId in s.slots ==> r.slots == s.slots)
            && (c.gpuId !in s.slots ==> r.slots[c.gpuId].capacity == c.gpuThread
                                         && r.slots[c.gpuId].sem.val == c.gpuThread)
  {
  }

  /** The first session's capacity wins: a second commit on the same GPU
      leaves its semaphore as it is, whatever capacity it asks for. */
  lemma FirstCapacityWins(s: State, gpuId: int, first: int, second: int)
    requires s.pending > 1
    ensures Commit(Commit(s, gpuId, first), gpuId, second).slots == Commit(s, gpuId, first).slots
  {
  }

  /** Under the invariant a wait blocks exactly when the number of calls in
      flight on the GPU has reached the semaphore's capacity, so in-flight
      submissions never exceed it. */
  lemma WaitBlocksAtCapacity(s: State, gpuId: int)
    requires Valid(s) && gpuId in s.slots
    ensures s.slots[gpuId].inFlight <= s.slots[gpuId].capacity
    ensures Wait(s, gpuId).None? <==> s.slots[gpuId].inFlight == s.slots[gpuId].capacity
  {
  }

  /** A signal after a wait restores the state. */
  lemma SignalUndoesWait(s: State, gpuId: int)
    requires gpuId in s.slots && Wait(s, gpuId).Some?
    ensures Signal(Wait(s, gpuId).value, gpuId) == s
  {
    var slot := s.slots[gpuId];
    assert s.slots[gpuId := slot] == s.slots;
  }

  /** One event of the plugin's life, in the order the lock serialises
      them. */
  datatype Event =
    | BeginCreate
    | EndCreate(o: FilterOptions.Options, h: FilterOptions.Host)
    | FreeFilter(gpuId: int)
    | WaitGpu(gpuId: int)
    | SignalGpu(gpuId: int)

  /** The state after one event, or None when the event cannot happen
      now: no creation is under way, no instance on that GPU exists, no
      permit is held, or the wait would block. */
  function Step(s: State, e: Event): Option<State>
  {
    match e
    case BeginCreate => Some(Enter(s))
    case EndCreate(o, h) => if s.pending > 0 then Some(FinishCreate(s, o, h)) else None
    case FreeFilter(g) => if g in s.sessions then Some(Free(s, g)) else None
    case WaitGpu(g) => if g in s.sessions && g in s.slots then Wait(s, g) else None
    case SignalGpu(g) => if g in s.slots && s.slots[g].inFlight > 0 then Some(Signal(s, g)) else None
  }

  /** Every event keeps the invariant. */
  lemma StepKeepsValid(s: State, e: Event)
    requires Valid(s) && Step(s, e).Some?
    ensures Valid(Step(s, e).value)
  {
    match e
    case BeginCreate => EnterKeepsValid(s);
    case EndCreate(o, h) => FinishCreateKeepsValid(s, o, h);
    case FreeFilter(g) => FreeKeepsValid(s, g);
    case WaitGpu(g) => WaitKeepsValid(s, g);
    case SignalGpu(g) => SignalKeepsValid(s, g);
  }

  /** The state after the events in order, or None when one of them cannot
      happen. */
  function Run(s: State, events: seq<Event>): Option<State>
    decreases |events|
  {
    if |events| == 0 then Some(s)
    else
      match Step(s, events[0])
      case None => None
      case Some(next) => Run(next, events[1..])
  }

  /** Every reachable state satisfies the invariant: the GPU instance is
      alive exactly while a filter instance exists, no semaphore value is
      negative, and each semaphore's value plus its calls in flight is its
      capacity. */
  lemma {:induction false} RunKeepsValid(s: State, events: seq<Event>)
    requires Valid(s) && Run(s, events).Some?
    ensures Valid(Run(s, events).value)
    decreases |events|
  {
    if |events| > 0 {
      StepKeepsValid(s, events[0]);
      RunKeepsValid(Step(s, events[0]).value, events[1..]);
    }
  }

  /** From the start, every reachable state keeps the instance count
      non-negative and every semaphore value non-negative. */
  lemma ReachableCountsNonNegative(events: seq<Event>)
    requires Run(Init, events).Some?
    ensures var r := Run(Init, events).value;
            && r.count >= 0 && (r.gpuAlive <==> r.count > 0)
            && forall g :: g in r.slots ==> r.slots[g].sem.val >= 0
  {
    InitValid();
    RunKeepsValid(Init, events);
  }

  /** The catch block of filterCreate destroys the GPU instance when the
      count reaches zero but, unlike filterFree, leaves the semaphore map as
      it is. So when the last live instance is freed while another creation
      is under way and that creation then fails, no instance and no GPU
      instance remain but the semaphore map still holds the freed session's
      semaphore, and a later session on that GPU gets it, with its old
      capacity. */
  lemma SemaphoresCanOutliveInstance()
    ensures var gpu := FilterOptions.GpuInfo(1000, 2, 2);
            var vi := FilterOptions.VideoInfo(Some(FilterOptions.VideoFormat(FilterOptions.Float, 32)), 64, 64);
            var h := FilterOptions.Host(vi, "/plugins/libvsrealesrgan.so", true, [gpu]);
            var o := FilterOptions.Options(None, None, None, None, None, None, None);
            var events := [BeginCreate, EndCreate(o, h), BeginCreate, FreeFilter(0),
                           EndCreate(o, h.(modelFilesReadable := false))];
            && Run(Init, events).Some?
            && Run(Init, events).value.count == 0
            && !Run(Init, events).value.gpuAlive
            && 0 in Run(Init, events).value.slots
  {
    var gpu := FilterOptions.GpuInfo(1000, 2, 2);
    var vi := FilterOptions.VideoInfo(Some(FilterOptions.VideoFormat(FilterOptions.Float, 32)), 64, 64);
    var h := FilterOptions.Host(vi, "/plugins/libvsrealesrgan.so", true, [gpu]);
    var o := FilterOptions.Options(None, None, None, None, None, None, None);
    var bad := h.(modelFilesReadable := false);
    FilterOptions.DefaultsExample();
    var c := FilterOptions.Create(o, h).value;
    var s1 := Enter(Init);
    assert s1.pending == 1 && s1.sessions == multiset{};
    var s2 := Commit(s1, 0, c.gpuThread);
    assert FinishCreate(s1, o, h) == s2;
    assert s2.count == 1 && s2.pending == 0 && 0 in s2.sessions && 0 in s2.slots;
    var s3 := Enter(s2);
    assert s3.count == 2 && s3.pending == 1 && 0 in s3.sessions && 0 in s3.slots;
    var s4 := Free(s3, 0);
    assert s4.count == 1 && s4.pending == 1 && 0 in s4.slots;
    var s5 := Abort(s4);
    assert FinishCreate(s4, o, bad) == s5;
    assert s5.count == 0 && !s5.gpuAlive && 0 in s5.slots;
    RunStep(s4, EndCreate(o, bad), []);
    RunStep(s3, FreeFilter(0), [EndCreate(o, bad)]);
    RunStep(s2, BeginCreate, [FreeFilter(0), EndCreate(o, bad)]);
    RunStep(s1, EndCreate(o, h), [BeginCreate, FreeFilter(0), EndCreate(o, bad)]);
    RunStep(Init, BeginCreate, [EndCreate(o, h), BeginCreate, FreeFilter(0), EndCreate(o, bad)]);
  }

  /** Running a first event and then the rest. */
  lemma RunStep(s: State, e: Event, rest: seq<Event>)
    ensures Run(s, [e] + rest) == if Step(s, e).None? then None else Run(Step(s, e).value, rest)
  {
    assert ([e] + rest)[1..] == rest;
  }
}

=== FILE: tiling.dfy ===
/** One-axis tiling as RealESRGAN::process uses it for both its row bands and
    its column tiles: an extent of `n` cells is cut into tiles of `t` cells,
    tile `i` starting at `i * t`, the last tile clipped to the extent.
    Everything here is over unbounded non-negative integers, so C's
    truncating division coincides with Dafny's. */
module Tiling {

  /** std::min and std::max on int. */
  function Min(a: int, b: int): int { if b < a then b else a }

  function Max(a: int, b: int): int { if a < b then b else a }

  /** The half-open interval [lo, hi) of integers, as a finite set. */
  function Range(lo: int, hi: int): (r: set<int>)
    ensures forall p :: p in r <==> lo <= p < hi
    decreases hi - lo
  {
    if hi <= lo then {} else Range(lo, hi - 1) + {hi - 1}
  }

  /** Multiplying both sides by the same non-negative factor keeps `<=`,
      and by a positive one keeps `<`. */
  lemma MulMonotone(a: int, b: int, t: int)
    requires a <= b && 0 <= t
    ensures a * t <= b * t
  {
    assert b * t - a * t == (b - a) * t;
  }

  lemma MulStrictMonotone(a: int, b: int, t: int)
    requires a < b && 0 < t
    ensures a * t < b * t
  {
    assert b * t - a * t == (b - a) * t;
  }

  /** The number of tiles, `(n + t - 1) / t` (xtiles / ytiles): the ceiling
      of n / t, i.e. the unique count whose tiles reach the end of the
      extent while the last one still starts inside it. */
  function Count(n: nat, t: nat): (r: nat)
    requires t >= 1
    ensures (r - 1) * t < n <= r * t
  {
    var q := (n + t - 1) / t;
    assert n + t - 1 == q * t + (n + t - 1) % t;
    assert (q - 1) * t == q * t - t;
    q
  }

  /** Only one count satisfies the ceiling bounds. */
  lemma CountUnique(n: nat, t: nat, q: nat)
    requires t >= 1
    requires (q - 1) * t < n <= q * t
    ensures q == Count(n, t)
  {
    var r := Count(n, t);
    if q < r {
      MulMonotone(q, r - 1, t);
    } else if r < q {
      MulMonotone(r, q - 1, t);
    }
  }

  /** One past the last cell of tile i: `min((i + 1) * t, n)`. */
  function End(i: nat, n: nat, t: nat): int
  {
    Min((i + 1) * t, n)
  }

  /** The unpadded length of tile i (tile_w_nopad, tile_h_nopad): between 1
      and t for every tile the loop visits, and empty past the last one. */
  function Len(i: nat, n: nat, t: nat): (r: int)
    requires t >= 1
    ensures i < Count(n, t) ==> 1 <= r <= t
    ensures i >= Count(n, t) ==> r <= 0
  {
    var c := Count(n, t);
    assert (i + 1) * t == i * t + t;
    if i < c then
      MulMonotone(i, c - 1, t);
      End(i, n, t) - i * t
    else
      MulMonotone(c, i, t);
      End(i, n, t) - i * t
  }

  /** Cell p lies in tile i. */
  predicate InTile(i: nat, n: nat, t: nat, p: int)
  {
    i * t <= p < End(i, n, t)
  }

  /** The cells of tile i. */
  function TileCells(i: nat, n: nat, t: nat): set<int>
  {
    Range(i * t, End(i, n, t))
  }

  /** The cells covered by tiles 0 .. k-1. */
  function Covered(k: nat, n: nat, t: nat): set<int>
  {
    if k == 0 then {} else Covered(k - 1, n, t) + TileCells(k - 1, n, t)
  }

  /** The first k tiles cover exactly the cells before `min(k * t, n)`:
      no gap opens between consecutive tiles. */
  lemma {:induction false} CoveredPrefix(k: nat, n: nat, t: nat)
    requires t >= 1 && k <= Count(n, t)
    ensures forall p :: p in Covered(k, n, t) <==> 0 <= p < Min(k * t, n)
  {
    if k > 0 {
      CoveredPrefix(k - 1, n, t);
      MulMonotone(k - 1, Count(n, t) - 1, t);
      assert k * t == (k - 1) * t + t;
    }
  }

  /** All tiles together cover the extent [0, n) and nothing beyond it. */
  lemma TilesCover(n: nat, t: nat)
    requires t >= 1
    ensures forall p :: p in Covered(Count(n, t), n, t) <==> 0 <= p < n
  {
    CoveredPrefix(Count(n, t), n, t);
  }

  /** An earlier tile ends before a later one starts, so tiles never overlap. */
  lemma TilesDisjoint(i: nat, j: nat, n: nat, t: nat)
    requires t >= 1 && i < j
    ensures End(i, n, t) <= j * t
    ensures TileCells(i, n, t) !! TileCells(j, n, t)
  {
    MulMonotone(i + 1, j, t);
  }

  /** Consecutive tiles touch: every tile but the last one is full length and
      ends where the next one starts; the last one ends at n. */
  lemma TilesContiguous(i: nat, n: nat, t: nat)
    requires t >= 1 && i < Count(n, t)
    ensures i + 1 < Count(n, t) ==> End(i, n, t) == (i + 1) * t
    ensures i + 1 == Count(n, t) ==> End(i, n, t) == n
  {
    if i + 1 < Count(n, t) {
      MulMonotone(i + 1, Count(n, t) - 1, t);
    }
  }

  /** Every cell of the extent lies in exactly one tile, the one numbered
      p / t. */
  lemma OwnerTile(n: nat, t: nat, p: int)
    requires t >= 1 && 0 <= p < n
    ensures p / t < Count(n, t) && InTile(p / t, n, t, p)
    ensures forall i: nat :: InTile(i, n, t, p) ==> i == p / t
  {
    var q := p / t;
    assert p == q * t + p % t;
    assert (q + 1) * t == q * t + t;
    if q >= Count(n, t) {
      MulMonotone(Count(n, t), q, t);
    }
    forall i: nat | InTile(i, n, t, p)
      ensures i == q
    {
      assert (i + 1) * t == i * t + t;
      if i < q {
        MulMonotone(i + 1, q, t);
      } else if i > q {
        MulMonotone(q + 1, i, t);
      }
    }
  }

  /** Scaling the extent and the tile size by the same factor keeps the
      number of tiles. */
  lemma ScaledCount(n: nat, t: nat, s: nat)
    requires t >= 1 && s >= 1
    ensures Count(n * s, t * s) == Count(n, t)
  {
    var r := Count(n, t);
    assert (r - 1) * (t * s) == ((r - 1) * t) * s;
    assert r * (t * s) == (r * t) * s;
    MulStrictMonotone((r - 1) * t, n, s);
    MulMonotone(n, r * t, s);
    CountUnique(n * s, t * s, r);
  }

  /** Scaling the extent and the tile size by the same factor scales each
      tile's bounds. */
  lemma ScaledTile(i: nat, n: nat, t: nat, s: nat)
    requires s >= 1
    ensures i * (t * s) == (i * t) * s
    ensures End(i, n * s, t * s) == End(i, n, t) * s
  {
    assert (i + 1) * (t * s) == ((i + 1) * t) * s;
    if (i + 1) * t < n {
      MulStrictMonotone((i + 1) * t, n, s);
    } else {
      MulMonotone(n, (i + 1) * t, s);
    }
  }
}

=== FILE: wrappers.dfy ===
/** The wrappers used throughout the model: an optional value
    (a VapourSynth argument that may be unset) and a value-or-error result
    (filter creation either yields a configuration or an error message). */
module Wrappers {

  datatype Option<+T> = None | Some(value: T) {

    /** The wrapped value, or `default` when there is none. */
    function GetOr(default: T): T
    {
      match this
      case Some(v) => v
      case None => default
    }
  }

  datatype Result<+R, +E> = Success(value: R) | Failure(error: E)
}
